=== FILE: README.md ===
# HUMAStarPathfinder in Dafny

HUMAStarPathfinder is an A* pathfinder for tile-based games. A host sets it
up with these inputs:
- the size of the tile map (in tiles) and of one tile (in screen units);
- a delegate that says whether a tile is walkable;
- a distance formula for the heuristic: Manhattan, Euclidean or Chebyshev;
- three flags that govern diagonal movement: `pathDiagonally`,
  `ignoreDiagonalBarriers` and `pathCanCrossBorders`.

`findPathFromStart:toTarget:` finds the shortest path from one screen
position to another and returns it as a list of points. The model turns the
two positions into tile locations and searches between them (the form of the
points is a modelling choice, see "Waypoints" below). It returns nil when:
- both positions fall in the same tile;
- the target tile is not walkable;
- no path exists.

Two helpers convert a tile location to the screen position at its centre
and a screen position back to its tile. They work in a coordinate system
with a bottom-left origin. The search keeps one record per tile, a
`HUMAStarPathfinderNode`. It holds the tile location, the cost so far
(`gCost`), the estimate to the target (`hValue`) and the derived score
(`fValue = gCost + hValue`). It also holds a link to the parent record, and
the path is rebuilt from those links.

The model is written from the two public headers. They declare the
interface and state the behaviour in doc comments:
- which calls return nil;
- the three-way rule for diagonal moves;
- the defaults;
- the "centre of the tile" conversion.

Where the headers are silent, the model fills the gap as follows:
- **Diagonal step cost.** A straight step costs 10 (the base cost named in
  the header). A diagonal step costs 14 (`Distance.DiagonalCost`).
- **Heuristic scale.** The heuristics are scaled by the same 10.
- **Screen to tile.** A screen position maps to its tile by floor division.
- **Start off the map.** A start tile off the map gives no path.
- **Tiles off the map.** A tile off the map is never walkable. That holds
  for the two cardinal tiles beside a diagonal move as well.
- **Waypoints.** The header says only that the points returned describe
  the path from start to target. The model makes three choices:
  - every waypoint is the centre of a tile of the path;
  - the first waypoint is the centre of the start tile, not the start
    position itself;
  - the last waypoint is the centre of the target tile, not the target
    position itself.
  With 16 x 16 tiles and a start at (47,14), the model's path therefore
  begins at (40,8).
- **Tie-break.** Among open records with the same `fValue`, the search
  takes one with the lowest `hValue`. The headers do not state any
  tie-break; this one is a modelling choice.

The modules:

- `Grid`: tile locations, sizes, the set of tiles of a map.
- `Distance`: the three heuristics on integers and their mutual ordering.
  Euclidean is the floor of the integer square root of
  `100 * (dx*dx + dy*dy)`.
- `PathfinderNode`: the search record and its setters. `fValue` is a
  function of the record, never a stored field.
- `Engine`: the pathfinder's configuration, its initialiser with the
  documented defaults, and walkability. The delegate becomes an optional
  pure predicate on tiles. Without a delegate, every tile on the map is
  walkable.
- `Positions`: the two position helpers, their round trip, and the header's
  examples.
- `Movement`: which neighbour a path may step to (the corner rule) and what
  a step costs. The neighbours are generated in the eight compass
  directions.
- `Routes`: routes, their cost, and the settings in which the heuristic is
  consistent with the step costs.
  - Consistent: no step lowers the estimate by more than the step costs.
  - Those settings are Chebyshev with any movement, and Manhattan or
    Euclidean without diagonal movement.
  - The default setting, Manhattan with diagonal movement, over-estimates.
  - So does Euclidean with diagonal movement: its floor over-estimates ten
    diagonal steps.
- `Search`: the A* search over tile locations.
  - The node table is a map keyed by tile location, so each tile has at
    most one record.
  - The open and closed sets are sets of tile locations.
  - The next tile is picked by the lowest `fValue`, with ties going to the
    lowest `hValue`.
  - Neighbours are relaxed, and closed records are final.
  - The loop ends because the set of tiles of the map that are not closed
    shrinks with each pass.
  - The path is rebuilt from the parent links. Each parent's `gCost` is
    lower than its child's, so the chain of links is finite.
- `Pathfinding`: `findPathFromStart:toTarget:` on screen positions.
- `OpenMap`: searches on a map without a delegate, where the cost of the
  path found is known exactly.
  - With Manhattan distance and no diagonal movement, the cost is the
    Manhattan distance.
  - With Chebyshev distance and diagonal movement, the cost is the octile
    distance.
  - On a 5 x 5 map with Chebyshev distance and diagonal movement, (0,0) to
    (4,4) gives 5 waypoints at cost 56.
- `Walls`: a search on a 5 x 5 map whose delegate blocks row 2 except the
  gap at column 2.
  - With any movement, every route from below the wall to above it
    passes through the gap.
  - With Manhattan distance, (0,0) to (4,4) gives 9 waypoints through the
    centre of the gap, at cost 80.

With integer tile sizes, the header's doc examples for the position helpers
disagree with each other (`Positions.DocExamplesDisagree`):
- tile (2,0) is said to have its centre at (48,16);
- position (47,14) is said to lie in tile (2,0).

No integer tile width puts the centre of column 2 at x = 48. Only the
integer widths 16 to 23 put x = 47 in column 2. The model follows the
stated rule, "the center of the provided tile", not the examples.

## Model

| member | source | states |
|---|---|---|
| Distance.Heuristic | HUMAStarPathfinder/HUMAStarPathfinder.h:11-29 | The three distance formulas on tile offsets, scaled by the base step cost 10: Manhattan 10 * (dx + dy), Chebyshev 10 * max(dx, dy), Euclidean the floor of 10 * sqrt(dx*dx + dy*dy). |
| Distance.ISqrt | HUMAStarPathfinder/HUMAStarPathfinder.h:18-22 | The Euclidean estimate's root is the largest natural number whose square does not exceed its argument. |
| Distance.HeuristicZeroIffAtTarget | HUMAStarPathfinder/HUMAStarPathfinder.h:11-29 | Each of the three distance formulas is zero exactly when the node is the target. |
| Distance.HeuristicSymmetric | HUMAStarPathfinder/HUMAStarPathfinder.h:11-29 | Each distance formula gives the same value in both directions. |
| Distance.HeuristicOrdering | HUMAStarPathfinder/HUMAStarPathfinder.h:11-29 | Chebyshev never exceeds Euclidean and Euclidean never exceeds Manhattan, for every pair of tiles. |
| Distance.HeuristicOfOneStraightStep | HUMAStarPathfinder/HUMAStarPathfinder.h:45-46 | Across one horizontal or vertical step every formula estimates the base movement cost 10, so estimates and step costs share a scale. |
| Distance.EuclideanAcrossStraightStep | HUMAStarPathfinder/HUMAStarPathfinder.h:18-22 | Across one horizontal or vertical step the Euclidean estimate towards any target falls by at most the base step cost 10. |
| Distance.EuclideanExceedsDiagonalCost | HUMAStarPathfinder/HUMAStarPathfinder.h:18-22 | The Euclidean estimate from (0,0) to (10,10) is 141, more than the 140 that ten diagonal steps cost. |
| PathfinderNode.Node.fValue | HUMAStarPathfinder/HUMAStarPathfinderNode.h:17 | A node's score is its gCost plus its hValue, derived from the record and never stored. |
| PathfinderNode.NodeWithLocation | HUMAStarPathfinder/HUMAStarPathfinderNode.h:20-21 | A new node carries the given tile location, zero costs and no parent. |
| PathfinderNode.WithGCost | HUMAStarPathfinder/HUMAStarPathfinderNode.h:15-17 | Setting gCost changes gCost and the derived fValue; tile location, hValue and parent are unchanged. |
| PathfinderNode.WithHValue | HUMAStarPathfinder/HUMAStarPathfinderNode.h:15-17 | Setting hValue changes hValue and the derived fValue; tile location, gCost and parent are unchanged. |
| PathfinderNode.WithParent | HUMAStarPathfinder/HUMAStarPathfinderNode.h:13-18 | Setting the parent changes only the back-link; costs, fValue and tile location are unchanged. |
| Engine.Init | HUMAStarPathfinder/HUMAStarPathfinder.h:63-100 | After initialisation: the given map size, tile size and delegate; Manhattan distance, diagonal paths on, diagonal barriers respected, border crossing on. |
| Engine.CanWalk | HUMAStarPathfinder/HUMAStarPathfinder.h:45-50 | A tile may be entered when it is on the map and either there is no delegate or the delegate reports it walkable. |
| Engine.WalkabilityOfDelegate | HUMAStarPathfinder/HUMAStarPathfinder.h:45-50 | Without a delegate a tile is walkable exactly when it is on the map; with one, exactly when it is on the map and the delegate accepts it. |
| Positions.PositionForTileLocation | HUMAStarPathfinder/HUMAStarPathfinder.h:122-129 | The position lies inside the given tile's area on both axes, at its centre (rounded down for odd tile sizes). |
| Positions.TileLocationForPosition | HUMAStarPathfinder/HUMAStarPathfinder.h:131-138 | The tile returned is the one whose area holds the position on both axes. |
| Positions.TileRoundTrip | HUMAStarPathfinder/HUMAStarPathfinder.h:121-138 | Converting any tile to its centre and back gives the same tile. |
| Positions.PositionSnapsToCentre | HUMAStarPathfinder/HUMAStarPathfinder.h:121-138 | A position converted to its tile's centre lies in the same tile as the position. |
| Positions.DocExamplesDisagree | HUMAStarPathfinder/HUMAStarPathfinder.h:125-136 | No integer tile width makes (48,16) the centre of tile (2,0); (47,14) lies in column 2 exactly for integer widths 16 to 23. |
| Movement.StepCost | HUMAStarPathfinder/HUMAStarPathfinder.h:45-46 | A step costs the base cost 10, or 14 when it is diagonal. |
| Movement.CornerRule | HUMAStarPathfinder/HUMAStarPathfinder.h:76-94 | The three-way rule for a diagonal move: always admitted when barriers are ignored; else, when borders may be crossed, when one of its two flanking cardinal tiles is walkable; else when both are. |
| Movement.CanStep | HUMAStarPathfinder/HUMAStarPathfinder.h:69-94 | A step is admitted to a walkable horizontal or vertical neighbour, or, with diagonal paths on, to a walkable diagonal neighbour that the corner rule admits. |
| Movement.CornerRuleCountsFlanks | HUMAStarPathfinder/HUMAStarPathfinder.h:76-94 | A diagonal move is admitted iff its walkable flanking cardinal tiles number at least 0 (barriers ignored), 1 (borders may be crossed) or 2 (otherwise). |
| Movement.CornerRulesNested | HUMAStarPathfinder/HUMAStarPathfinder.h:76-94 | Requiring both flanks admits no more moves than requiring one, which admits no more than ignoring barriers; border crossing is irrelevant once barriers are ignored. |
| Movement.NoCornerCutting | HUMAStarPathfinder/HUMAStarPathfinder.h:84-90 | With barriers respected and border crossing off, a diagonal move past an unwalkable flank is refused even when its target is walkable. |
| Movement.StepShape | HUMAStarPathfinder/HUMAStarPathfinder.h:69-74 | An admitted step goes to a different, adjacent, walkable tile on the map; with diagonal paths off it is horizontal or vertical and costs 10. |
| Movement.OpenMapSteps | HUMAStarPathfinder/HUMAStarPathfinder.h:45-50 | Without a delegate every straight move between map tiles is admitted, and every diagonal one when diagonal paths are on, whatever the corner policy. |
| Movement.Candidates | HUMAStarPathfinder/HUMAStarPathfinder.h:69-94 | The candidates in a list of directions are exactly the admitted steps in those directions. |
| Movement.Neighbours | HUMAStarPathfinder/HUMAStarPathfinder.h:69-94 | The neighbours of a tile, scanned in the eight compass directions, are exactly the tiles one admitted step away. |
| Routes.IsRoute | HUMAStarPathfinder/HUMAStarPathfinder.h:112-113 | A valid path: it starts at the start tile, ends at the target tile, and each tile is one admitted step after the one before it. |
| Routes.Reachable | HUMAStarPathfinder/HUMAStarPathfinder.h:112-113 | There is a valid path from one tile to the other. |
| Routes.RouteCost | HUMAStarPathfinder/HUMAStarPathfinder.h:106-107 | The cost of a path is the sum of the costs of its steps; zero for a single tile. |
| Routes.RouteTilesWalkable | HUMAStarPathfinder/HUMAStarPathfinder.h:112-113 | Every tile of a route after its first is walkable. |
| Routes.UnwalkableUnreachable | HUMAStarPathfinder/HUMAStarPathfinder.h:112-113 | No route from another tile leads to an unwalkable target. |
| Routes.StraightRouteCost | HUMAStarPathfinder/HUMAStarPathfinder.h:69-74 | With diagonal paths off, a route costs 10 per step. |
| Routes.RouteCostCountsSteps | HUMAStarPathfinder/HUMAStarPathfinder.h:45-46 | A route costs 10 per step plus 4 per diagonal step. |
| Routes.RouteStepsCoverDistance | HUMAStarPathfinder/HUMAStarPathfinder.h:24-28 | A route takes at least as many steps as the Chebyshev distance between its ends. |
| Routes.HeuristicAlongRoute | HUMAStarPathfinder/HUMAStarPathfinder.h:62-67 | With a consistent heuristic, the estimate at a route's start is at most the route's cost plus the estimate at its end. |
| Routes.ConsistentIsAdmissible | HUMAStarPathfinder/HUMAStarPathfinder.h:62-67 | A consistent heuristic never over-estimates the cost of a route to the target. |
| Routes.AdmissibleSettingIsConsistent | HUMAStarPathfinder/HUMAStarPathfinder.h:11-29 | Chebyshev with any movement, and Manhattan or Euclidean with horizontal and vertical movement only, are consistent for every target. |
| Routes.DefaultSettingOverestimates | HUMAStarPathfinder/HUMAStarPathfinder.h:63-74 | With the default Manhattan distance and diagonal paths, a one-step diagonal route costs 14 against an estimate of 20, so the heuristic is not consistent. |
| Search.ParentChain | HUMAStarPathfinder/HUMAStarPathfinderNode.h:13 | Following parent links from a record reaches the start record; read forwards it is a route whose cost is the record's gCost. |
| Search.PickBest | HUMAStarPathfinder/HUMAStarPathfinder.h:106-107 | The tile picked is open and no open record has a lower fValue, or an equal fValue and a lower hValue. |
| Search.Relax | HUMAStarPathfinder/HUMAStarPathfinderNode.h:13-17 | A neighbour that is not closed ends with a record costing at most the cost through the current tile; the search state keeps its shape and closed records do not change. |
| Search.Expand | HUMAStarPathfinder/HUMAStarPathfinder.h:69-94 | After expanding a closed tile, every admitted neighbour of it is relaxed; closed records are unchanged and the state keeps its shape. |
| Search.ClosingIsOptimal | HUMAStarPathfinder/HUMAStarPathfinder.h:106-107 | With a consistent heuristic, the best open record costs no more than any route to its tile. |
| Search.RoutesStayClosed | HUMAStarPathfinder/HUMAStarPathfinder.h:112-113 | Once the open set is empty, every route from a closed tile ends on a closed tile. |
| Search.TargetReached | HUMAStarPathfinder/HUMAStarPathfinder.h:106-107 | When the target is the best open tile and the heuristic is consistent, its record costs no more than any route to it. |
| Search.SearchTiles | HUMAStarPathfinder/HUMAStarPathfinder.h:106-115 | No path iff start equals target, the start is off the map, or no route exists; none when the target is unwalkable; otherwise a route of admitted steps over walkable tiles, and a cheapest one under a consistent heuristic. |
| Pathfinding.CentresOf | HUMAStarPathfinder/HUMAStarPathfinder.h:112 | Each tile becomes its centre, and converting those positions back gives the tiles. |
| Pathfinding.FindPath | HUMAStarPathfinder/HUMAStarPathfinder.h:106-115 | Nil iff both positions share a tile, the start tile is off the map, or no route exists; nil for an unwalkable target; otherwise tile centres of a route of admitted steps, horizontal and vertical only without diagonal paths, and a cheapest route for Chebyshev, four-way Manhattan or four-way Euclidean. |
| OpenMap.StraightRoute | HUMAStarPathfinder/HUMAStarPathfinder.h:45-50 | Without a delegate, any two map tiles are joined by a route of straight steps costing exactly the Manhattan estimate. |
| OpenMap.OctileBelowRoute | HUMAStarPathfinder/HUMAStarPathfinder.h:69-74 | No route costs less than the octile distance between its ends. |
| OpenMap.DiagonalRoute | HUMAStarPathfinder/HUMAStarPathfinder.h:69-74 | Without a delegate and with diagonal paths, any two map tiles are joined by a route costing exactly the octile distance. |
| OpenMap.FindPathOnOpenMap | HUMAStarPathfinder/HUMAStarPathfinder.h:106-115 | Without a delegate, with Manhattan distance and no diagonal paths, a path is found iff the two tiles differ and are on the map; it costs the Manhattan estimate and has one step per unit of distance. |
| OpenMap.FindPathOnOpenMapDiagonally | HUMAStarPathfinder/HUMAStarPathfinder.h:106-115 | Without a delegate, with Chebyshev distance and diagonal paths, a path is found iff the two tiles differ and are on the map; it costs the octile distance, no more than the Manhattan estimate. |
| OpenMap.OpenGridScenario | HUMAStarPathfinder/HUMAStarPathfinder.h:106-115 | With Chebyshev distance and diagonal paths, on a 5 x 5 open map of 16 x 16 tiles, (8,8) to (72,72) gives 5 waypoints from (8,8) to (72,72), four diagonal steps costing 56. |
| Walls.RoutesPassTheGap | HUMAStarPathfinder/HUMAStarPathfinder.h:147-157 | When the delegate blocks row 2 except column 2, with any movement, every route from a tile below row 2 to a tile above it passes through the gap (2,2). |
| Walls.GapRoute | HUMAStarPathfinder/HUMAStarPathfinder.h:147-157 | On the walled 5 x 5 map, a route of nine tiles joins (0,0) to (4,4). |
| Walls.WalledGridScenario | HUMAStarPathfinder/HUMAStarPathfinder.h:106-115 | On the walled 5 x 5 map with Manhattan distance and no diagonal moves, a path is found; its 9 waypoints run from the centre of (0,0) to the centre of (4,4), it passes through the centre of the gap (2,2), and it costs 80. |

## Left out

- The implementation files (`HUMAStarPathfinder.m`, `HUMAStarPathfinderNode.m`) are not part of this model. The model follows the headers' declarations and doc comments, and the choices listed above fill the gaps.
- Floating point: `CGFloat`/`CGPoint`/`CGSize` become integers. Screen-to-tile conversion is floor division. Positions left of or below the map give negative tile locations, which are off the map.
- Distance.Heuristic: the Euclidean estimate is the floor of an integer square root, `floor(sqrt(100*(dx*dx + dy*dy)))`, not a floating-point `sqrt`. With diagonal movement this floor over-estimates (`Distance.EuclideanExceedsDiagonalCost`), so no optimality is claimed for Euclidean with diagonal movement; without diagonal movement it is consistent and optimality is proved.
- Pathfinding.FindPath: the "shortest path" promise is proved only for Chebyshev distance, and for Manhattan or Euclidean distance without diagonal movement. With diagonal movement, Euclidean over-estimates (`Distance.EuclideanExceedsDiagonalCost`). Under the defaults (Manhattan with diagonal movement) the heuristic over-estimates (`Routes.DefaultSettingOverestimates`), so only validity and the nil conditions are stated.
- Positions.DocExamplesDisagree: the clash holds only for integer tile sizes. With the header's real-valued `CGSize`, both examples fit an unusual tile size of 19.2 x 32 (the centre of (2,0) is then (48,16), and (47,14) floors to (2,0)).
- OpenMap.OpenGridScenario: stated for Chebyshev distance only. Under the default Manhattan distance with diagonal movement, the search contract does not fix which route is returned, so the cost 56 and the 5 waypoints are not established there.
- Search.PickBest: among open records with equal `fValue` and `hValue`, which one is picked is left unspecified. The implementation's order of the open list is not visible. The `hValue` tie-break is itself a modelling choice. The contract of `Search.SearchTiles` holds for any choice among the open records with the lowest `fValue`: its proofs use only that no open record has a lower `fValue`.
- Movement.StepCost: the header ties the base cost 10 to a nil delegate (HUMAStarPathfinder/HUMAStarPathfinder.h:45-46). The delegate protocol it shows (HUMAStarPathfinder/HUMAStarPathfinder.h:147-157) has only the walkability query and no cost query. So the model keeps 10 for a straight step and 14 for a diagonal one when a delegate is set.
- The diagonal step cost 14 is a modelling choice. The header names only the base cost 10.
- The delegate object, and the pathfinder argument passed to it, become an optional pure predicate on tile locations. Weak and strong references, `NSArray` and `NSValue` boxing, and object identity of node records are left out. Records are values in a table keyed by tile location.
- A top-left origin variant is not part of this model. The header names only a bottom-left origin.
- Changing configuration during a search, and calling the pathfinder from several threads at once, are left out. A search is one call on an immutable configuration.
- Non-positive tile sizes: the position helpers require positive tile sizes. The header does not say what a zero tile size does.
- The cocos2d files of the example app (director, bitmap font labels, render textures, camera actions) are rendering and run-loop code outside the pathfinder, and are not part of this model.

=== FILE: distance.dfy ===
/** The heuristic distance formulas (HUMAStarDistanceType) and their scale. */
module Distance {
  import opened Grid

  /** The distance formula used for a node's heuristic. */
  datatype DistanceType = Manhattan | Euclidean | Chebyshev

  /** The base movement cost of one horizontal or vertical step. */
  const StraightCost: nat := 10

  /** The movement cost of one diagonal step: 10 * sqrt 2, rounded down. */
  const DiagonalCost: nat := 14

  /** Integer square root: the largest r with r * r <= n. */
  function ISqrt(n: nat): (r: nat)
    ensures r * r <= n < (r + 1) * (r + 1)
    decreases n
  {
    if n < 4 then
      (if n == 0 then 0 else 1)
    else
      var half := ISqrt(n / 4);
      HalvingBounds(n, half);
      if (2 * half + 1) * (2 * half + 1) <= n then 2 * half + 1 else 2 * half
  }

  /** The root of n lies within one of twice the root of n / 4. */
  lemma HalvingBounds(n: nat, half: nat)
    requires half * half <= n / 4 < (half + 1) * (half + 1)
    ensures (2 * half) * (2 * half) <= n < (2 * half + 2) * (2 * half + 2)
  {
    var q := n / 4;
    assert n == 4 * q + n % 4;
    assert (2 * half) * (2 * half) == 4 * (half * half);
    assert (2 * half + 2) * (2 * half + 2) == 4 * ((half + 1) * (half + 1));
    assert q + 1 <= (half + 1) * (half + 1);
  }

  /** The estimated cost of moving from `from` to `to`, on the scale of the
      step costs: each unit of distance costs StraightCost. The Euclidean
      distance is rounded down to an integer. */
  function Heuristic(kind: DistanceType, from: Tile, to: Tile): nat {
    var dx := Abs(from.col - to.col);
    var dy := Abs(from.row - to.row);
    match kind
    case Manhattan => StraightCost * (dx + dy)
    case Chebyshev => StraightCost * Max(dx, dy)
    case Euclidean => ISqrt(StraightCost * StraightCost * (dx * dx + dy * dy))
  }

  /** Squaring is monotonic on naturals. */
  lemma SquareMonotonic(a: nat, b: nat)
    requires a <= b
    ensures a * a <= b * b
  {
    assert a * a <= a * b;
    assert a * b <= b * b;
  }

  /** ISqrt(n) is the only natural whose square brackets n. */
  lemma ISqrtUnique(n: nat, r: nat)
    requires r * r <= n < (r + 1) * (r + 1)
    ensures ISqrt(n) == r
  {
    var q := ISqrt(n);
    if q < r {
      SquareMonotonic(q + 1, r);
    } else if r < q {
      SquareMonotonic(r + 1, q);
    }
  }

  /** ISqrt is monotonic. */
  lemma ISqrtMonotonic(m: nat, n: nat)
    requires m <= n
    ensures ISqrt(m) <= ISqrt(n)
  {
    var a, b := ISqrt(m), ISqrt(n);
    if b < a {
      SquareMonotonic(b + 1, a);
    }
  }

  /** Every heuristic estimates zero exactly for the target tile itself. */
  lemma HeuristicZeroIffAtTarget(kind: DistanceType, from: Tile, to: Tile)
    ensures Heuristic(kind, from, to) == 0 <==> from == to
  {
    var dx := Abs(from.col - to.col);
    var dy := Abs(from.row - to.row);
    if kind == Euclidean {
      var n := StraightCost * StraightCost * (dx * dx + dy * dy);
      if from == to {
        assert n == 0;
      } else {
        assert dx * dx + dy * dy >= 1;
        assert n >= 100;
        ISqrtMonotonic(100, n);
        ISqrtUnique(100, 10);
      }
    }
  }

  /** The heuristics do not depend on the direction of travel. */
  lemma HeuristicSymmetric(kind: DistanceType, a: Tile, b: Tile)
    ensures Heuristic(kind, a, b) == Heuristic(kind, b, a)
  {
    assert Abs(a.col - b.col) == Abs(b.col - a.col);
    assert Abs(a.row - b.row) == Abs(b.row - a.row);
  }

  /** Chebyshev never exceeds Euclidean, which never exceeds Manhattan. */
  lemma HeuristicOrdering(from: Tile, to: Tile)
    ensures Heuristic(Chebyshev, from, to) <= Heuristic(Euclidean, from, to)
    ensures Heuristic(Euclidean, from, to) <= Heuristic(Manhattan, from, to)
  {
    var dx := Abs(from.col - to.col);
    var dy := Abs(from.row - to.row);
    EstimateOrdering(dx, dy, 100 * (dx * dx + dy * dy));
  }

  lemma EstimateOrdering(dx: nat, dy: nat, n: nat)
    requires n == 100 * (dx * dx + dy * dy)
    ensures 10 * Max(dx, dy) <= ISqrt(n) <= 10 * (dx + dy)
  {
    SquareBounds(dx, dy);
    var m := 10 * (dx + dy);
    var c := 10 * Max(dx, dy);
    ISqrtOfSquare(m);
    ISqrtOfSquare(c);
    ISqrtMonotonic(n, m * m);
    ISqrtMonotonic(c * c, n);
  }

  lemma ISqrtOfSquare(m: nat)
    ensures ISqrt(m * m) == m
  {
    assert (m + 1) * (m + 1) == m * m + 2 * m + 1;
    ISqrtUnique(m * m, m);
  }

  /** The squared distances behind the ordering of the heuristics. */
  lemma SquareBounds(dx: nat, dy: nat)
    ensures (10 * Max(dx, dy)) * (10 * Max(dx, dy)) <= 100 * (dx * dx + dy * dy)
    ensures 100 * (dx * dx + dy * dy) <= (10 * (dx + dy)) * (10 * (dx + dy))
  {
    var c := Max(dx, dy);
    assert (10 * c) * (10 * c) == 100 * (c * c);
    assert c * c <= dx * dx + dy * dy;
    assert (10 * (dx + dy)) * (10 * (dx + dy)) == 100 * ((dx + dy) * (dx + dy));
    assert (dx + dy) * (dx + dy) == dx * dx + dy * dy + 2 * (dx * dy);
  }

  /** On one horizontal or vertical step every heuristic estimates exactly
      the base step cost: heuristics and movement costs share one scale. */
  lemma HeuristicOfOneStraightStep(kind: DistanceType, from: Tile, to: Tile)
    requires IsStraight(from, to)
    ensures Heuristic(kind, from, to) == StraightCost
  {
    var dx := Abs(from.col - to.col);
    var dy := Abs(from.row - to.row);
    assert dx * dx + dy * dy == 1;
    if kind == Euclidean {
      ISqrtUnique(100, 10);
    }
  }

  /** Moving one tile further along one axis raises the Euclidean estimate
      by at most the base step cost. */
  lemma EuclideanStraightStep(d: nat, e: nat)
    ensures ISqrt(100 * ((d + 1) * (d + 1) + e * e)) <= StraightCost + ISqrt(100 * (d * d + e * e))
  {
    var n := 100 * (d * d + e * e);
    var m := 100 * ((d + 1) * (d + 1) + e * e);
    EstimateOrdering(d, e, n);
    SuccessorSquare(d);
    assert m == n + 200 * d + 100;
    RootStep(n, m, ISqrt(n), ISqrt(m), d);
  }

  /** If m exceeds n by 200 * d + 100 and the root r of n is at least
      10 * d, the root s of m is at most r + 10. */
  lemma RootStep(n: nat, m: nat, r: nat, s: nat, d: nat)
    requires r * r <= n < (r + 1) * (r + 1) && s * s <= m < (s + 1) * (s + 1)
    requires 10 * d <= r && m == n + 200 * d + 100
    ensures s <= r + 10
  {
    RootGrowth(n, r, d, m);
    if s >= r + 11 {
      SquareMonotonic(r + 11, s);
    }
  }

  lemma SuccessorSquare(d: nat)
    ensures (d + 1) * (d + 1) == d * d + 2 * d + 1
  {
  }

  /** Adding 200 * d + 100 to n, whose root r is at least 10 * d, stays
      below the square of r + 11. */
  lemma RootGrowth(n: nat, r: nat, d: nat, m: nat)
    requires n < (r + 1) * (r + 1) && 10 * d <= r
    requires m == n + 200 * d + 100
    ensures m < (r + 11) * (r + 11)
  {
    assert (r + 1) * (r + 1) == r * r + 2 * r + 1;
    assert (r + 11) * (r + 11) == r * r + 22 * r + 121;
  }

  /** For offsets that differ by one along a single axis, the Euclidean
      estimate `ISqrt(na)` of the one is at most the base step cost above
      the estimate `ISqrt(nb)` of the other. */
  lemma EuclideanOffsetStep(na: nat, nb: nat, dxa: nat, dya: nat, dxb: nat, dyb: nat)
    requires na == 100 * (dxa * dxa + dya * dya) && nb == 100 * (dxb * dxb + dyb * dyb)
    requires (dya == dyb && (dxa == dxb + 1 || dxa + 1 == dxb)) || (dxa == dxb && (dya == dyb + 1 || dya + 1 == dyb))
    ensures ISqrt(na) <= StraightCost + ISqrt(nb)
  {
    if dxa == dxb + 1 {
      EuclideanStraightStep(dxb, dyb);
    } else if dya == dyb + 1 {
      EuclideanStraightStep(dyb, dxb);
      SumCommutes(dyb + 1, dxb);
      SumCommutes(dyb, dxb);
    } else {
      SquareSumMonotonic(dxa, dya, dxb, dyb);
      ISqrtMonotonic(na, nb);
    }
  }

  lemma SumCommutes(x: nat, y: nat)
    ensures 100 * (x * x + y * y) == 100 * (y * y + x * x)
  {
  }

  lemma SquareSumMonotonic(dxa: nat, dya: nat, dxb: nat, dyb: nat)
    requires dxa <= dxb && dya <= dyb
    ensures 100 * (dxa * dxa + dya * dya) <= 100 * (dxb * dxb + dyb * dyb)
  {
    SquareMonotonic(dxa, dxb);
    SquareMonotonic(dya, dyb);
  }

  /** Across one horizontal or vertical step the Euclidean estimate towards
      any target falls by at most the base step cost. */
  lemma EuclideanAcrossStraightStep(a: Tile, b: Tile, target: Tile)
    requires IsStraight(a, b)
    ensures Heuristic(Euclidean, a, target) <= StraightCost + Heuristic(Euclidean, b, target)
  {
    var dxa, dya := Abs(a.col - target.col), Abs(a.row - target.row);
    var dxb, dyb := Abs(b.col - target.col), Abs(b.row - target.row);
    var na, nb := 100 * (dxa * dxa + dya * dya), 100 * (dxb * dxb + dyb * dyb);
    StraightStepOffsets(a, b, target);
    EuclideanEstimate(a, target, na);
    EuclideanEstimate(b, target, nb);
    EuclideanOffsetStep(na, nb, dxa, dya, dxb, dyb);
  }

  lemma EuclideanEstimate(from: Tile, to: Tile, n: nat)
    requires n == 100 * (Abs(from.col - to.col) * Abs(from.col - to.col) + Abs(from.row - to.row) * Abs(from.row - to.row))
    ensures Heuristic(Euclidean, from, to) == ISqrt(n)
  {
  }

  /** One horizontal or vertical step changes one offset to the target by
      one and leaves the other alone. */
  lemma StraightStepOffsets(a: Tile, b: Tile, target: Tile)
    requires IsStraight(a, b)
    ensures var dxa, dya := Abs(a.col - target.col), Abs(a.row - target.row);
      var dxb, dyb := Abs(b.col - target.col), Abs(b.row - target.row);
      (dya == dyb && (dxa == dxb + 1 || dxa + 1 == dxb)) || (dxa == dxb && (dya == dyb + 1 || dya + 1 == dyb))
  {
  }

  /** Rounded-down Euclidean distance from (0,0) to (10,10) is 141, more than
      the 140 that ten diagonal steps cost: with DiagonalCost the Euclidean
      heuristic can over-estimate when diagonal movement is allowed. */
  lemma EuclideanExceedsDiagonalCost()
    ensures Heuristic(Euclidean, Tile(0, 0), Tile(10, 10)) == 141
    ensures 10 * DiagonalCost < 141
  {
    ISqrtUnique(20000, 141);
  }
}

=== FILE: engine.dfy ===
/** The pathfinder's configuration (the HUMAStarPathfinder properties) and
    the walkability question put to its delegate. */
module Engine {
  import opened Wrappers
  import opened Grid
  import opened Distance

  /** A pathfinder. The delegate, when present, is the host's walkability
      predicate on tile locations. */
  datatype Pathfinder = Pathfinder(
    delegate: Option<Tile -> bool>,
    tileMapSize: Size,
    tileSize: Size,
    distanceType: DistanceType,
    pathDiagonally: bool,
    ignoreDiagonalBarriers: bool,
    pathCanCrossBorders: bool)

  /** A pathfinder as initialised from a map size, a tile size and a
      delegate, with the documented defaults for everything else. */
  function Init(mapSize: Size, tileSize: Size, delegate: Option<Tile -> bool>): (pf: Pathfinder)
    ensures pf.tileMapSize == mapSize && pf.tileSize == tileSize && pf.delegate == delegate
    ensures pf.distanceType == Manhattan
    ensures pf.pathDiagonally
    ensures !pf.ignoreDiagonalBarriers
    ensures pf.pathCanCrossBorders
  {
    Pathfinder(delegate, mapSize, tileSize, Manhattan, true, false, true)
  }

  /** True iff a path may enter tile `t`: it lies on the map and the delegate,
      if there is one, reports it walkable. */
  predicate CanWalk(pf: Pathfinder, t: Tile) {
    && InBounds(pf.tileMapSize, t)
    && (pf.delegate.None? || pf.delegate.value(t))
  }

  /** Without a delegate, walkability is exactly being on the map; with one,
      it is being on the map and accepted by the delegate. */
  lemma WalkabilityOfDelegate(pf: Pathfinder, t: Tile)
    ensures pf.delegate.None? ==> (CanWalk(pf, t) <==> InBounds(pf.tileMapSize, t))
    ensures pf.delegate.Some? ==> (CanWalk(pf, t) <==> InBounds(pf.tileMapSize, t) && pf.delegate.value(t))
    ensures CanWalk(pf, t) ==> t in AllTiles(pf.tileMapSize)
  {
  }
}

=== FILE: grid.dfy ===
/** Tile coordinates and sizes of the tile map the pathfinder searches. */
module Grid {

  /** The location of a tile within the tile matrix: column and row, counted
      from the bottom-left tile. */
  datatype Tile = Tile(col: int, row: int)

  /** A width and a height: of the tile map (in tiles) or of one tile (in
      screen units). */
  datatype Size = Size(width: int, height: int)

  /** True iff `t` is a tile of a map of `mapSize` tiles. */
  predicate InBounds(mapSize: Size, t: Tile) {
    0 <= t.col < mapSize.width && 0 <= t.row < mapSize.height
  }

  /** Every tile of the map, as a finite set (used as a termination measure). */
  function AllTiles(mapSize: Size): (tiles: set<Tile>)
    ensures forall t :: t in tiles <==> InBounds(mapSize, t)
  {
    set c: int, r: int | 0 <= c < mapSize.width && 0 <= r < mapSize.height :: Tile(c, r)
  }

  function Abs(x: int): nat {
    if x < 0 then -x else x
  }

  function Max(a: nat, b: nat): nat {
    if a < b then b else a
  }

  /** A horizontal or vertical move to an adjacent tile. */
  predicate IsStraight(from: Tile, to: Tile) {
    Abs(to.col - from.col) + Abs(to.row - from.row) == 1
  }

  /** A move to a diagonally adjacent tile. */
  predicate IsDiagonal(from: Tile, to: Tile) {
    Abs(to.col - from.col) == 1 && Abs(to.row - from.row) == 1
  }
}

=== FILE: movement.dfy ===
/** Which neighbouring tiles a path may move to, and what a move costs. */
module Movement {
  import opened Grid
  import opened Distance
  import opened Engine

  /** The movement cost of a step. */
  function StepCost(from: Tile, to: Tile): nat {
    if IsDiagonal(from, to) then DiagonalCost else StraightCost
  }

  /** The cardinal tile beside a diagonal move along the row it starts in
      (E for a move NE). */
  function RowFlank(from: Tile, to: Tile): Tile {
    Tile(to.col, from.row)
  }

  /** The cardinal tile beside a diagonal move along the column it starts in
      (N for a move NE). */
  function ColumnFlank(from: Tile, to: Tile): Tile {
    Tile(from.col, to.row)
  }

  /** The corner rule for a diagonal move, as set by ignoreDiagonalBarriers
      and pathCanCrossBorders. A flank off the map counts as not walkable. */
  predicate CornerRule(pf: Pathfinder, from: Tile, to: Tile) {
    if pf.ignoreDiagonalBarriers then true
    else if pf.pathCanCrossBorders then CanWalk(pf, RowFlank(from, to)) || CanWalk(pf, ColumnFlank(from, to))
    else CanWalk(pf, RowFlank(from, to)) && CanWalk(pf, ColumnFlank(from, to))
  }

  /** True iff a path may move from `from` to `to` in one step: to a walkable
      horizontal or vertical neighbour, or, when pathDiagonally is set, to a
      walkable diagonal neighbour that the corner rule admits. */
  predicate CanStep(pf: Pathfinder, from: Tile, to: Tile) {
    if IsStraight(from, to) then CanWalk(pf, to)
    else IsDiagonal(from, to) && pf.pathDiagonally && CanWalk(pf, to) && CornerRule(pf, from, to)
  }

  /** The number of walkable flanks of a diagonal move. */
  function OpenFlanks(pf: Pathfinder, from: Tile, to: Tile): nat {
    (if CanWalk(pf, RowFlank(from, to)) then 1 else 0) + (if CanWalk(pf, ColumnFlank(from, to)) then 1 else 0)
  }

  /** The number of walkable flanks each corner policy asks for. */
  function RequiredFlanks(pf: Pathfinder): nat {
    if pf.ignoreDiagonalBarriers then 0 else if pf.pathCanCrossBorders then 1 else 2
  }

  /** The corner rule, counted: a diagonal move is admitted iff at least as
      many of its flanks are walkable as the policy asks for. */
  lemma CornerRuleCountsFlanks(pf: Pathfinder, from: Tile, to: Tile)
    ensures CornerRule(pf, from, to) <==> OpenFlanks(pf, from, to) >= RequiredFlanks(pf)
  {
  }

  /** The three policies are nested: requiring both flanks admits no more
      diagonal moves than requiring one, which admits no more than ignoring
      barriers; and pathCanCrossBorders has no effect when barriers are ignored. */
  lemma CornerRulesNested(pf: Pathfinder, from: Tile, to: Tile)
    ensures CornerRule(pf.(ignoreDiagonalBarriers := false, pathCanCrossBorders := false), from, to)
        ==> CornerRule(pf.(ignoreDiagonalBarriers := false, pathCanCrossBorders := true), from, to)
    ensures CornerRule(pf.(ignoreDiagonalBarriers := false, pathCanCrossBorders := true), from, to)
        ==> CornerRule(pf.(ignoreDiagonalBarriers := true), from, to)
    ensures pf.ignoreDiagonalBarriers
        ==> CornerRule(pf, from, to) == CornerRule(pf.(pathCanCrossBorders := !pf.pathCanCrossBorders), from, to)
  {
  }

  /** A step goes to a different, adjacent, walkable tile on the map and costs
      at least the base cost; without diagonal movement it is horizontal or
      vertical and costs exactly the base cost. */
  lemma StepShape(pf: Pathfinder, from: Tile, to: Tile)
    requires CanStep(pf, from, to)
    ensures from != to && Abs(to.col - from.col) <= 1 && Abs(to.row - from.row) <= 1
    ensures CanWalk(pf, to) && InBounds(pf.tileMapSize, to)
    ensures StraightCost <= StepCost(from, to)
    ensures !pf.pathDiagonally ==>
      (Abs(to.col - from.col) == 1 && to.row == from.row) || (to.col == from.col && Abs(to.row - from.row) == 1)
    ensures !pf.pathDiagonally ==> StepCost(from, to) == StraightCost
  {
  }

  /** A diagonal move between two unwalkable flanks is never admitted when
      pathCanCrossBorders and ignoreDiagonalBarriers are both off, even if
      its target is walkable. */
  lemma NoCornerCutting(pf: Pathfinder, from: Tile, to: Tile)
    requires !pf.ignoreDiagonalBarriers && !pf.pathCanCrossBorders
    requires IsDiagonal(from, to)
    requires !CanWalk(pf, RowFlank(from, to)) || !CanWalk(pf, ColumnFlank(from, to))
    ensures !CanStep(pf, from, to)
  {
  }

  /** With no delegate, every move between two adjacent tiles of the map is
      admitted (a diagonal one when pathDiagonally is set), whatever the
      corner policy: both flanks are then on the map as well. */
  lemma OpenMapSteps(pf: Pathfinder, from: Tile, to: Tile)
    requires pf.delegate.None?
    requires InBounds(pf.tileMapSize, from) && InBounds(pf.tileMapSize, to)
    requires IsStraight(from, to) || (IsDiagonal(from, to) && pf.pathDiagonally)
    ensures CanStep(pf, from, to)
  {
    assert CanWalk(pf, RowFlank(from, to)) && CanWalk(pf, ColumnFlank(from, to));
  }

  /** One of the eight compass directions, as a column and row offset. */
  datatype Direction = Direction(dc: int, dr: int)

  /** The eight directions in which neighbours are examined: N, E, S, W,
      then NE, SE, SW, NW. */
  const Directions: seq<Direction> := [
    Direction(0, 1), Direction(1, 0), Direction(0, -1), Direction(-1, 0),
    Direction(1, 1), Direction(1, -1), Direction(-1, -1), Direction(-1, 1)]

  function Move(t: Tile, d: Direction): Tile {
    Tile(t.col + d.dc, t.row + d.dr)
  }

  function DirectionOf(from: Tile, to: Tile): Direction {
    Direction(to.col - from.col, to.row - from.row)
  }

  /** The tiles one admitted step from `from` in the directions `ds`. */
  function Candidates(pf: Pathfinder, from: Tile, ds: seq<Direction>): (ns: seq<Tile>)
    ensures forall n :: n in ns <==> DirectionOf(from, n) in ds && CanStep(pf, from, n)
  {
    if ds == [] then []
    else
      var n := Move(from, ds[0]);
      assert DirectionOf(from, n) == ds[0];
      (if CanStep(pf, from, n) then [n] else []) + Candidates(pf, from, ds[1..])
  }

  /** Every tile reachable in one step is in one of the eight directions. */
  lemma StepHasDirection(pf: Pathfinder, from: Tile, to: Tile)
    requires CanStep(pf, from, to)
    ensures DirectionOf(from, to) in Directions
  {
    var d := DirectionOf(from, to);
    StepShape(pf, from, to);
    assert d.dc in {-1, 0, 1} && d.dr in {-1, 0, 1};
    assert d != Direction(0, 0);
  }

  /** The neighbours of a tile: exactly the tiles one admitted step away. */
  function Neighbours(pf: Pathfinder, from: Tile): (ns: seq<Tile>)
    ensures forall n :: n in ns <==> CanStep(pf, from, n)
  {
    var ns := Candidates(pf, from, Directions);
    assert forall n :: CanStep(pf, from, n) ==> n in ns by {
      forall n | CanStep(pf, from, n) ensures n in ns {
        StepHasDirection(pf, from, n);
      }
    }
    ns
  }
}

=== FILE: node.dfy ===
/** The search record of one tile (HUMAStarPathfinderNode). */
module PathfinderNode {
  import opened Wrappers
  import opened Grid

  /** One tile's record during a search. The parent back-link is the tile
      location of the parent's record: records live in a node table keyed by
      tile location, so a link is a key into that table. */
  datatype Node = Node(tileLocation: Tile, gCost: nat, hValue: nat, parentNode: Option<Tile>)
  {
    /** The node's score: cost so far plus estimated cost to go. It is derived,
        never stored, so it cannot disagree with its two parts. */
    function fValue(): nat {
      gCost + hValue
    }
  }

  /** A fresh record for `location`: no cost yet, no estimate, no parent. */
  function NodeWithLocation(location: Tile): (n: Node)
    ensures n.tileLocation == location
    ensures n.gCost == 0 && n.hValue == 0 && n.fValue() == 0
    ensures n.parentNode.None?
  {
    Node(location, 0, 0, None)
  }

  /** Setting gCost changes gCost and the derived fValue, and nothing else. */
  function WithGCost(n: Node, g: nat): (m: Node)
    ensures m.gCost == g && m.fValue() == g + n.hValue
    ensures m.tileLocation == n.tileLocation && m.hValue == n.hValue && m.parentNode == n.parentNode
  {
    n.(gCost := g)
  }

  /** Setting hValue changes hValue and the derived fValue, and nothing else. */
  function WithHValue(n: Node, h: nat): (m: Node)
    ensures m.hValue == h && m.fValue() == n.gCost + h
    ensures m.tileLocation == n.tileLocation && m.gCost == n.gCost && m.parentNode == n.parentNode
  {
    n.(hValue := h)
  }

  /** Setting parentNode changes the back-link only. */
  function WithParent(n: Node, parent: Option<Tile>): (m: Node)
    ensures m.parentNode == parent
    ensures m.tileLocation == n.tileLocation && m.gCost == n.gCost && m.hValue == n.hValue
    ensures m.fValue() == n.fValue()
  {
    n.(parentNode := parent)
  }
}

=== FILE: openmap.dfy ===
/** Searches on a map without obstacles: no delegate, so every tile of the
    map is walkable. There the cost of the path found is known exactly. */
module OpenMap {
  import opened Wrappers
  import opened Grid
  import opened Distance
  import opened Engine
  import opened Movement
  import opened Routes
  import opened Positions
  import opened Pathfinding

  /** On a map without a delegate, a route between two tiles of the map that
      first walks along the row and then along the column: it takes only
      horizontal and vertical steps and costs exactly the Manhattan estimate. */
  function StraightRoute(pf: Pathfinder, from: Tile, to: Tile): (path: seq<Tile>)
    requires pf.delegate.None?
    requires InBounds(pf.tileMapSize, from) && InBounds(pf.tileMapSize, to)
    ensures IsRoute(pf, path, from, to)
    ensures RouteCost(path) == Heuristic(Manhattan, from, to)
    decreases Abs(to.col - from.col) + Abs(to.row - from.row)
  {
    if from == to then [from]
    else
      var prev := StraightBack(from, to);
      var prefix := StraightRoute(pf, from, prev);
      OpenMapSteps(pf, prev, to);
      ExtendRoute(pf, prefix, from, prev, to);
      prefix + [to]
  }

  /** True iff `t` lies in the rectangle spanned by `a` and `b`. */
  predicate Within(a: Tile, b: Tile, t: Tile) {
    && (a.col <= t.col <= b.col || b.col <= t.col <= a.col)
    && (a.row <= t.row <= b.row || b.row <= t.row <= a.row)
  }

  /** The tile one horizontal or vertical step back from `to` towards `from`,
      along the row while the columns differ. */
  function StraightBack(from: Tile, to: Tile): (prev: Tile)
    requires from != to
    ensures IsStraight(prev, to) && Within(from, to, prev)
    ensures Abs(prev.col - from.col) + Abs(prev.row - from.row) + 1 == Abs(to.col - from.col) + Abs(to.row - from.row)
  {
    if to.col != from.col then Tile(to.col + (if to.col < from.col then 1 else -1), to.row)
    else Tile(to.col, to.row + (if to.row < from.row then 1 else -1))
  }

  /** The tile one step back from `to` towards `from`, diagonal while both
      offsets remain: a step that accounts for its full cost in the octile
      distance. */
  function DiagonalBack(from: Tile, to: Tile): (prev: Tile)
    requires from != to
    ensures (IsStraight(prev, to) || IsDiagonal(prev, to)) && Within(from, to, prev)
    ensures Abs(prev.col - from.col) + Abs(prev.row - from.row) < Abs(to.col - from.col) + Abs(to.row - from.row)
    ensures Octile(from, to) == Octile(from, prev) + StepCost(prev, to)
  {
    Tile(
      if to.col < from.col then to.col + 1 else if to.col > from.col then to.col - 1 else to.col,
      if to.row < from.row then to.row + 1 else if to.row > from.row then to.row - 1 else to.row)
  }

  /** The octile distance: the cost of moving diagonally as far as both
      offsets allow and straight for the rest. */
  function Octile(from: Tile, to: Tile): nat {
    var dx, dy := Abs(to.col - from.col), Abs(to.row - from.row);
    if dx < dy then DiagonalCost * dx + StraightCost * (dy - dx)
    else DiagonalCost * dy + StraightCost * (dx - dy)
  }

  /** One step changes the octile distance from a fixed tile by no more than
      the step costs. */
  lemma OctileStep(from: Tile, mid: Tile, to: Tile)
    requires mid != to && Abs(to.col - mid.col) <= 1 && Abs(to.row - mid.row) <= 1
    ensures Octile(from, to) <= Octile(from, mid) + StepCost(mid, to)
  {
  }

  /** No route costs less than the octile distance between its ends. */
  lemma {:induction false} OctileBelowRoute(pf: Pathfinder, path: seq<Tile>, from: Tile, to: Tile)
    requires IsRoute(pf, path, from, to)
    ensures Octile(from, to) <= RouteCost(path)
    decreases |path|
  {
    if |path| > 1 {
      var mid := path[|path| - 2];
      var prefix := path[..|path| - 1];
      assert IsRoute(pf, prefix, from, mid);
      OctileBelowRoute(pf, prefix, from, mid);
      StepShape(pf, mid, to);
      OctileStep(from, mid, to);
    }
  }

  /** On a map without a delegate and with diagonal movement, a route that
      moves diagonally towards the target while both offsets remain and
      straight afterwards: it costs exactly the octile distance. */
  function DiagonalRoute(pf: Pathfinder, from: Tile, to: Tile): (path: seq<Tile>)
    requires pf.delegate.None? && pf.pathDiagonally
    requires InBounds(pf.tileMapSize, from) && InBounds(pf.tileMapSize, to)
    ensures IsRoute(pf, path, from, to)
    ensures RouteCost(path) == Octile(from, to)
    decreases Abs(to.col - from.col) + Abs(to.row - from.row)
  {
    if from == to then [from]
    else
      var prev := DiagonalBack(from, to);
      var prefix := DiagonalRoute(pf, from, prev);
      OpenMapSteps(pf, prev, to);
      ExtendRoute(pf, prefix, from, prev, to);
      prefix + [to]
  }

  /** On a map without a delegate, with Manhattan distance and no diagonal
      movement, a path between two different tiles of the map is always
      found, and it costs exactly the Manhattan estimate, one base-cost step
      per unit of Manhattan distance. */
  method FindPathOnOpenMap(pf: Pathfinder, startPos: Point, targetPos: Point) returns (path: Option<seq<Point>>)
    requires ValidTileSize(pf.tileSize)
    requires pf.delegate.None? && pf.distanceType == Manhattan && !pf.pathDiagonally
    ensures var start, target := TileLocationForPosition(pf.tileSize, startPos), TileLocationForPosition(pf.tileSize, targetPos);
      path.Some? <==> start != target && InBounds(pf.tileMapSize, start) && InBounds(pf.tileMapSize, target)
    ensures path.Some? ==>
      var start, target := TileLocationForPosition(pf.tileSize, startPos), TileLocationForPosition(pf.tileSize, targetPos);
      var tiles := TilesOf(pf, path.value);
      && RouteCost(tiles) == Heuristic(Manhattan, start, target)
      && |tiles| - 1 == Abs(target.col - start.col) + Abs(target.row - start.row)
  {
    var start := TileLocationForPosition(pf.tileSize, startPos);
    var target := TileLocationForPosition(pf.tileSize, targetPos);
    path := FindPath(pf, startPos, targetPos);
    if start != target && InBounds(pf.tileMapSize, start) && InBounds(pf.tileMapSize, target) {
      var shortcut := StraightRoute(pf, start, target);
      assert Reachable(pf, start, target);
      var tiles := TilesOf(pf, path.value);
      assert RouteCost(tiles) <= RouteCost(shortcut);
      AdmissibleSettingIsConsistent(pf, target);
      ConsistentIsAdmissible(pf, target, tiles, start);
      StraightRouteCost(pf, tiles, start, target);
    }
  }

  /** On a map without a delegate, with Chebyshev distance and diagonal
      movement, a path between two different tiles of the map is always
      found, and it costs exactly the octile distance, whatever the corner
      policy: (0,0) to (4,4) costs 4 diagonal steps, 56. */
  method FindPathOnOpenMapDiagonally(pf: Pathfinder, startPos: Point, targetPos: Point) returns (path: Option<seq<Point>>)
    requires ValidTileSize(pf.tileSize)
    requires pf.delegate.None? && pf.distanceType == Chebyshev && pf.pathDiagonally
    ensures var start, target := TileLocationForPosition(pf.tileSize, startPos), TileLocationForPosition(pf.tileSize, targetPos);
      path.Some? <==> start != target && InBounds(pf.tileMapSize, start) && InBounds(pf.tileMapSize, target)
    ensures path.Some? ==>
      var start, target := TileLocationForPosition(pf.tileSize, startPos), TileLocationForPosition(pf.tileSize, targetPos);
      var tiles := TilesOf(pf, path.value);
      && IsRoute(pf, tiles, start, target)
      && (forall i :: 0 <= i < |tiles| ==> path.value[i] == PositionForTileLocation(pf.tileSize, tiles[i]))
      && RouteCost(tiles) == Octile(start, target)
      && RouteCost(tiles) <= Heuristic(Manhattan, start, target)
  {
    var start := TileLocationForPosition(pf.tileSize, startPos);
    var target := TileLocationForPosition(pf.tileSize, targetPos);
    path := FindPath(pf, startPos, targetPos);
    if start != target && InBounds(pf.tileMapSize, start) && InBounds(pf.tileMapSize, target) {
      var shortcut := DiagonalRoute(pf, start, target);
      assert Reachable(pf, start, target);
      var tiles := TilesOf(pf, path.value);
      assert RouteCost(tiles) <= RouteCost(shortcut);
      OctileBelowRoute(pf, tiles, start, target);
    }
  }

  /** A 5 x 5 open grid of 16 x 16 tiles, searched with Chebyshev distance
      and diagonal movement from the centre of tile (0,0) to the centre of
      tile (4,4): the path has 5 waypoints, from (8,8) to (72,72), and costs
      4 diagonal steps, 56. */
  method OpenGridScenario(pf: Pathfinder) returns (path: Option<seq<Point>>)
    requires pf.delegate.None? && pf.tileMapSize == Size(5, 5) && pf.tileSize == Size(16, 16)
    requires pf.distanceType == Chebyshev && pf.pathDiagonally
    ensures path.Some? && |path.value| == 5
    ensures path.Some? ==> path.value[0] == Point(8, 8) && path.value[4] == Point(72, 72)
    ensures path.Some? ==> RouteCost(TilesOf(pf, path.value)) == 56
    ensures path.Some? ==> DiagonalSteps(TilesOf(pf, path.value)) == 4
  {
    var start, target := Point(8, 8), Point(72, 72);
    assert TileLocationForPosition(pf.tileSize, start) == Tile(0, 0);
    assert TileLocationForPosition(pf.tileSize, target) == Tile(4, 4);
    path := FindPathOnOpenMapDiagonally(pf, start, target);
    var tiles := TilesOf(pf, path.value);
    RouteStepsCoverDistance(pf, tiles, Tile(0, 0), Tile(4, 4));
    RouteCostCountsSteps(tiles);
  }
}

=== FILE: pathfinding.dfy ===
/** findPathFromStart:toTarget: — the pathfinder's public search, from one
    screen position to another. */
module Pathfinding {
  import opened Wrappers
  import opened Grid
  import opened Engine
  import opened Movement
  import opened Routes
  import opened Positions
  import opened Search

  /** The tile location of each point of a path. */
  function TilesOf(pf: Pathfinder, points: seq<Point>): (tiles: seq<Tile>)
    requires ValidTileSize(pf.tileSize)
    ensures |tiles| == |points|
    ensures forall i :: 0 <= i < |points| ==> tiles[i] == TileLocationForPosition(pf.tileSize, points[i])
  {
    seq(|points|, i requires 0 <= i < |points| => TileLocationForPosition(pf.tileSize, points[i]))
  }

  /** The centre of each tile of a path. */
  function CentresOf(pf: Pathfinder, tiles: seq<Tile>): (points: seq<Point>)
    requires ValidTileSize(pf.tileSize)
    ensures |points| == |tiles|
    ensures forall i :: 0 <= i < |tiles| ==> points[i] == PositionForTileLocation(pf.tileSize, tiles[i])
    ensures TilesOf(pf, points) == tiles
  {
    var points := seq(|tiles|, i requires 0 <= i < |tiles| => PositionForTileLocation(pf.tileSize, tiles[i]));
    forall i | 0 <= i < |tiles|
      ensures TileLocationForPosition(pf.tileSize, points[i]) == tiles[i]
    {
      TileRoundTrip(pf.tileSize, tiles[i]);
    }
    points
  }

  /** Finds a path from the tile holding `startPos` to the tile holding
      `targetPos`, as the centres of its tiles. No path when both positions
      fall in the same tile, when the target tile is not walkable, or when
      no route exists; otherwise a route of admitted steps, every tile after
      the first walkable, and a cheapest one when the heuristic suits the
      movement allowed. */
  method FindPath(pf: Pathfinder, startPos: Point, targetPos: Point) returns (path: Option<seq<Point>>)
    requires ValidTileSize(pf.tileSize)
    ensures var start, target := TileLocationForPosition(pf.tileSize, startPos), TileLocationForPosition(pf.tileSize, targetPos);
      && (path.None? <==> start == target || !InBounds(pf.tileMapSize, start) || !Reachable(pf, start, target))
      && (start == target ==> path.None?)
      && (!CanWalk(pf, target) ==> path.None?)
    ensures path.Some? ==>
      var start, target := TileLocationForPosition(pf.tileSize, startPos), TileLocationForPosition(pf.tileSize, targetPos);
      var tiles := TilesOf(pf, path.value);
      && IsRoute(pf, tiles, start, target)
      && (forall i :: 0 <= i < |tiles| ==> path.value[i] == PositionForTileLocation(pf.tileSize, tiles[i]))
      && (forall i :: 1 <= i < |tiles| ==> CanWalk(pf, tiles[i]))
    ensures path.Some? && AdmissibleSetting(pf) ==>
      var start, target := TileLocationForPosition(pf.tileSize, startPos), TileLocationForPosition(pf.tileSize, targetPos);
      forall q :: IsRoute(pf, q, start, target) ==> RouteCost(TilesOf(pf, path.value)) <= RouteCost(q)
    ensures path.Some? && !pf.pathDiagonally ==>
      var tiles := TilesOf(pf, path.value);
      forall i :: 0 <= i < |tiles| - 1 ==> IsStraight(tiles[i], tiles[i + 1])
  {
    var start := TileLocationForPosition(pf.tileSize, startPos);
    var target := TileLocationForPosition(pf.tileSize, targetPos);
    if AdmissibleSetting(pf) {
      AdmissibleSettingIsConsistent(pf, target);
    }
    var tiles := SearchTiles(pf, start, target);
    match tiles
    case None =>
      path := None;
    case Some(ts) =>
      var points := CentresOf(pf, ts);
      forall i | 0 <= i < |ts| - 1
        ensures IsStraight(ts[i], ts[i + 1]) || pf.pathDiagonally
      {
        if !pf.pathDiagonally {
          StepShape(pf, ts[i], ts[i + 1]);
        }
      }
      path := Some(points);
  }
}

=== FILE: positions.dfy ===
/** The position helpers: tile location to screen position and back, in a
    coordinate system whose origin is the bottom-left corner of tile (0,0). */
module Positions {
  import opened Grid

  /** A position on screen. */
  datatype Point = Point(x: int, y: int)

  /** Tile sizes for which the conversions are defined. */
  predicate ValidTileSize(tileSize: Size) {
    tileSize.width > 0 && tileSize.height > 0
  }

  /** True iff coordinate `v` falls in cell `index` of a row of cells of
      length `len` starting at 0: the half-open span [index*len, index*len+len). */
  predicate InSpan(v: int, index: int, len: int) {
    index * len <= v < index * len + len
  }

  /** True iff `v` is the middle of cell `index` (rounded down when the
      cell length is odd): as far from the cell's left edge as from its right
      edge, or one unit nearer the left. */
  predicate AtCentre(v: int, index: int, len: int) {
    var toLeft := v - index * len;
    var toRight := index * len + len - v;
    toRight - 1 <= toLeft <= toRight
  }

  /** The screen position at the centre of tile `t`. */
  function PositionForTileLocation(tileSize: Size, t: Tile): (p: Point)
    requires ValidTileSize(tileSize)
    ensures InSpan(p.x, t.col, tileSize.width) && InSpan(p.y, t.row, tileSize.height)
    ensures AtCentre(p.x, t.col, tileSize.width) && AtCentre(p.y, t.row, tileSize.height)
  {
    Point(t.col * tileSize.width + tileSize.width / 2, t.row * tileSize.height + tileSize.height / 2)
  }

  /** The tile whose area holds screen position `p`. */
  function TileLocationForPosition(tileSize: Size, p: Point): (t: Tile)
    requires ValidTileSize(tileSize)
    ensures InSpan(p.x, t.col, tileSize.width) && InSpan(p.y, t.row, tileSize.height)
  {
    Tile(p.x / tileSize.width, p.y / tileSize.height)
  }

  /** A coordinate falls in at most one cell. */
  lemma SpanUnique(v: int, i: int, j: int, len: int)
    requires len > 0 && InSpan(v, i, len) && InSpan(v, j, len)
    ensures i == j
  {
    if i < j {
      LaterCellStartsAfter(i, j, len);
    } else if j < i {
      LaterCellStartsAfter(j, i, len);
    }
  }

  /** A later cell starts no earlier than the end of an earlier one. */
  lemma LaterCellStartsAfter(i: int, j: int, len: int)
    requires i < j && len > 0
    ensures i * len + len <= j * len
  {
    var k := j - i;
    assert j * len == i * len + k * len;
    assert k * len >= len by {
      assert k * len == (k - 1) * len + len;
      assert (k - 1) * len >= 0;
    }
  }

  /** The centre of a tile converts back to that tile, for every tile. */
  lemma TileRoundTrip(tileSize: Size, t: Tile)
    requires ValidTileSize(tileSize)
    ensures TileLocationForPosition(tileSize, PositionForTileLocation(tileSize, t)) == t
  {
    var p := PositionForTileLocation(tileSize, t);
    var u := TileLocationForPosition(tileSize, p);
    SpanUnique(p.x, u.col, t.col, tileSize.width);
    SpanUnique(p.y, u.row, t.row, tileSize.height);
  }

  /** Converting a position to its tile and back lands on the centre of the
      tile holding the original position. */
  lemma PositionSnapsToCentre(tileSize: Size, p: Point)
    requires ValidTileSize(tileSize)
    ensures var c := PositionForTileLocation(tileSize, TileLocationForPosition(tileSize, p));
      TileLocationForPosition(tileSize, c) == TileLocationForPosition(tileSize, p)
  {
    TileRoundTrip(tileSize, TileLocationForPosition(tileSize, p));
  }

  /** With integer tile sizes the header's two examples cannot both describe
      the centre rule: no integer tile width puts the centre of tile (2,0) at
      x = 48, while the integer widths that map x = 47 into column 2 are 16
      to 23. */
  lemma DocExamplesDisagree(tileSize: Size)
    requires ValidTileSize(tileSize)
    ensures PositionForTileLocation(tileSize, Tile(2, 0)).x != 48
    ensures TileLocationForPosition(tileSize, Point(47, 14)).col == 2 <==> 16 <= tileSize.width <= 23
  {
    var w := tileSize.width;
    var t := TileLocationForPosition(tileSize, Point(47, 14));
    if 16 <= w <= 23 {
      assert InSpan(47, 2, w);
      SpanUnique(47, t.col, 2, w);
    } else if t.col == 2 {
      assert false;
    }
  }
}

=== FILE: routes.dfy ===
/** Routes over the tile map, their cost, and the heuristic settings under
    which the search's estimates never over-estimate a route. */
module Routes {
  import opened Grid
  import opened Distance
  import opened Engine
  import opened Movement

  /** True iff `path` runs from `from` to `to` and each tile is one admitted
      step after the one before it. */
  predicate IsRoute(pf: Pathfinder, path: seq<Tile>, from: Tile, to: Tile) {
    && |path| >= 1
    && path[0] == from
    && path[|path| - 1] == to
    && forall i :: 0 <= i < |path| - 1 ==> CanStep(pf, path[i], path[i + 1])
  }

  /** True iff some route leads from `from` to `to`. */
  ghost predicate Reachable(pf: Pathfinder, from: Tile, to: Tile) {
    exists path :: IsRoute(pf, path, from, to)
  }

  /** The total movement cost of the steps of `path`. */
  function RouteCost(path: seq<Tile>): nat
    decreases |path|
  {
    if |path| <= 1 then 0
    else RouteCost(path[..|path| - 1]) + StepCost(path[|path| - 2], path[|path| - 1])
  }

  /** Appending one admitted step to a route gives a route, costlier by that
      step's cost. */
  lemma ExtendRoute(pf: Pathfinder, path: seq<Tile>, from: Tile, mid: Tile, to: Tile)
    requires IsRoute(pf, path, from, mid) && CanStep(pf, mid, to)
    ensures IsRoute(pf, path + [to], from, to)
    ensures RouteCost(path + [to]) == RouteCost(path) + StepCost(mid, to)
  {
    assert (path + [to])[..|path|] == path;
  }

  /** Every tile of a route after its first is walkable. */
  lemma RouteTilesWalkable(pf: Pathfinder, path: seq<Tile>, from: Tile, to: Tile)
    requires IsRoute(pf, path, from, to)
    ensures forall i :: 1 <= i < |path| ==> CanWalk(pf, path[i])
  {
    forall i | 1 <= i < |path|
      ensures CanWalk(pf, path[i])
    {
      StepShape(pf, path[i - 1], path[i]);
    }
  }

  /** A route between two different tiles ends on a walkable tile. */
  lemma RoutesEndWalkable(pf: Pathfinder, from: Tile, to: Tile)
    requires from != to
    ensures forall path :: IsRoute(pf, path, from, to) ==> CanWalk(pf, to)
  {
    forall path | IsRoute(pf, path, from, to)
      ensures CanWalk(pf, to)
    {
      RouteTilesWalkable(pf, path, from, to);
    }
  }

  /** So no route leads to a tile that is not walkable. */
  lemma UnwalkableUnreachable(pf: Pathfinder, from: Tile, to: Tile)
    requires from != to && !CanWalk(pf, to)
    ensures !Reachable(pf, from, to)
  {
    RoutesEndWalkable(pf, from, to);
  }

  /** Without diagonal movement, every step of a route costs the base cost. */
  lemma {:induction false} StraightRouteCost(pf: Pathfinder, path: seq<Tile>, from: Tile, to: Tile)
    requires !pf.pathDiagonally && IsRoute(pf, path, from, to)
    ensures RouteCost(path) == StraightCost * (|path| - 1)
    decreases |path|
  {
    if |path| > 1 {
      var prefix := path[..|path| - 1];
      assert IsRoute(pf, prefix, from, path[|path| - 2]);
      StraightRouteCost(pf, prefix, from, path[|path| - 2]);
      StepShape(pf, path[|path| - 2], path[|path| - 1]);
    }
  }

  /** The number of diagonal steps along `path`. */
  function DiagonalSteps(path: seq<Tile>): nat
    decreases |path|
  {
    if |path| <= 1 then 0
    else DiagonalSteps(path[..|path| - 1]) + (if IsDiagonal(path[|path| - 2], path[|path| - 1]) then 1 else 0)
  }

  /** A route costs the base cost per step plus the diagonal surcharge per
      diagonal step. */
  lemma {:induction false} RouteCostCountsSteps(path: seq<Tile>)
    ensures DiagonalSteps(path) <= |path| - 1 || |path| == 0
    ensures |path| >= 1 ==>
      RouteCost(path) == StraightCost * (|path| - 1) + (DiagonalCost - StraightCost) * DiagonalSteps(path)
    decreases |path|
  {
    if |path| > 1 {
      RouteCostCountsSteps(path[..|path| - 1]);
    }
  }

  /** A route needs at least as many steps as the larger of its offsets. */
  lemma {:induction false} RouteStepsCoverDistance(pf: Pathfinder, path: seq<Tile>, from: Tile, to: Tile)
    requires IsRoute(pf, path, from, to)
    ensures Max(Abs(to.col - from.col), Abs(to.row - from.row)) <= |path| - 1
    decreases |path|
  {
    if |path| > 1 {
      var mid := path[|path| - 2];
      assert IsRoute(pf, path[..|path| - 1], from, mid);
      RouteStepsCoverDistance(pf, path[..|path| - 1], from, mid);
      StepShape(pf, mid, to);
    }
  }

  /** The first i + 1 tiles of a route form a route to its i-th tile. */
  lemma RoutePrefix(pf: Pathfinder, path: seq<Tile>, from: Tile, to: Tile, i: nat)
    requires IsRoute(pf, path, from, to) && i < |path|
    ensures IsRoute(pf, path[..i + 1], from, path[i])
  {
  }

  /** The tiles of a route from its i-th on form a route from that tile. */
  lemma RouteSuffix(pf: Pathfinder, path: seq<Tile>, from: Tile, to: Tile, i: nat)
    requires IsRoute(pf, path, from, to) && i < |path|
    ensures IsRoute(pf, path[i..], path[i], to)
  {
    var suffix := path[i..];
    forall k | 0 <= k < |suffix| - 1
      ensures CanStep(pf, suffix[k], suffix[k + 1])
    {
      assert suffix[k] == path[i + k] && suffix[k + 1] == path[i + k + 1];
    }
  }

  /** Splitting a route at a tile splits its cost. */
  lemma {:induction false} RouteCostSplit(path: seq<Tile>, i: nat)
    requires i < |path|
    ensures RouteCost(path) == RouteCost(path[..i + 1]) + RouteCost(path[i..])
    decreases |path|
  {
    if i == |path| - 1 {
      assert path[..i + 1] == path;
    } else {
      var prefix := path[..|path| - 1];
      RouteCostSplit(prefix, i);
      assert prefix[..i + 1] == path[..i + 1];
      var suffix := path[i..];
      assert suffix[..|suffix| - 1] == prefix[i..];
      assert suffix[|suffix| - 2] == path[|path| - 2] && suffix[|suffix| - 1] == path[|path| - 1];
    }
  }

  /** The heuristic towards `target` is consistent with the step costs: no
      step lowers the estimate by more than the step costs. */
  ghost predicate Consistent(pf: Pathfinder, target: Tile) {
    forall a, b :: CanStep(pf, a, b) ==>
      Heuristic(pf.distanceType, a, target) <= StepCost(a, b) + Heuristic(pf.distanceType, b, target)
  }

  /** Along a route, a consistent heuristic drops by no more than the route
      costs. */
  lemma {:induction false} HeuristicAlongRoute(pf: Pathfinder, target: Tile, path: seq<Tile>, from: Tile, to: Tile)
    requires Consistent(pf, target) && IsRoute(pf, path, from, to)
    ensures Heuristic(pf.distanceType, from, target) <= RouteCost(path) + Heuristic(pf.distanceType, to, target)
    decreases |path|
  {
    if |path| > 1 {
      var mid := path[|path| - 2];
      var prefix := path[..|path| - 1];
      assert IsRoute(pf, prefix, from, mid);
      HeuristicAlongRoute(pf, target, prefix, from, mid);
      assert CanStep(pf, mid, to);
    }
  }

  /** A consistent heuristic is admissible: it never over-estimates the cost
      of a route to the target. */
  lemma ConsistentIsAdmissible(pf: Pathfinder, target: Tile, path: seq<Tile>, from: Tile)
    requires Consistent(pf, target) && IsRoute(pf, path, from, target)
    ensures Heuristic(pf.distanceType, from, target) <= RouteCost(path)
  {
    HeuristicAlongRoute(pf, target, path, from, target);
    HeuristicZeroIffAtTarget(pf.distanceType, target, target);
  }

  /** The settings whose heuristic fits the movement they allow: Chebyshev
      with or without diagonal movement, and Manhattan or Euclidean when
      movement is only horizontal and vertical. */
  predicate AdmissibleSetting(pf: Pathfinder) {
    || pf.distanceType == Chebyshev
    || (pf.distanceType == Manhattan && !pf.pathDiagonally)
    || (pf.distanceType == Euclidean && !pf.pathDiagonally)
  }

  /** The admissible settings make the heuristic consistent, for every target. */
  lemma AdmissibleSettingIsConsistent(pf: Pathfinder, target: Tile)
    requires AdmissibleSetting(pf)
    ensures Consistent(pf, target)
  {
    forall a, b | CanStep(pf, a, b)
      ensures Heuristic(pf.distanceType, a, target) <= StepCost(a, b) + Heuristic(pf.distanceType, b, target)
    {
      StepShape(pf, a, b);
      if pf.distanceType == Euclidean {
        EuclideanAcrossStraightStep(a, b, target);
      }
    }
  }

  /** The default setting (Manhattan with diagonal movement) over-estimates:
      on a map of at least 2 x 2 open tiles, the one-step diagonal route from
      (0,0) to (1,1) costs 14 while Manhattan estimates 20. */
  lemma DefaultSettingOverestimates(pf: Pathfinder)
    requires pf.distanceType == Manhattan && pf.pathDiagonally && pf.delegate.None?
    requires pf.tileMapSize.width >= 2 && pf.tileMapSize.height >= 2
    ensures IsRoute(pf, [Tile(0, 0), Tile(1, 1)], Tile(0, 0), Tile(1, 1))
    ensures RouteCost([Tile(0, 0), Tile(1, 1)]) < Heuristic(pf.distanceType, Tile(0, 0), Tile(1, 1))
    ensures !Consistent(pf, Tile(1, 1))
  {
    OpenMapSteps(pf, Tile(0, 0), Tile(1, 1));
    assert [Tile(0, 0), Tile(1, 1)][..1] == [Tile(0, 0)];
    HeuristicZeroIffAtTarget(pf.distanceType, Tile(1, 1), Tile(1, 1));
  }
}

=== FILE: search.dfy ===
/** The A* search over tile locations. */
module Search {
  import opened Wrappers
  import opened Grid
  import opened Distance
  import opened PathfinderNode
  import opened Engine
  import opened Movement
  import opened Routes

  /** The node records of one search, keyed by tile location: at most one
      record per tile. */
  type Table = map<Tile, Node>

  /** Each record sits under its own tile location. */
  ghost predicate KeyedByTile(nodes: Table) {
    forall k :: k in nodes ==> nodes[k].tileLocation == k
  }

  /** The parent link of `k` is sound: it names a record one admitted step
      before `k` whose cost is lower by exactly that step's cost. */
  ghost predicate LinkOk(pf: Pathfinder, nodes: Table, k: Tile)
    requires k in nodes
  {
    match nodes[k].parentNode
    case None => true
    case Some(p) => p in nodes && CanStep(pf, p, k) && nodes[k].gCost == nodes[p].gCost + StepCost(p, k)
  }

  /** The parent links form a tree rooted at the start node, the only record
      without a parent, whose cost is zero. */
  ghost predicate ParentLinks(pf: Pathfinder, start: Tile, nodes: Table) {
    && start in nodes
    && nodes[start].gCost == 0
    && (forall k :: k in nodes ==> (nodes[k].parentNode.None? <==> k == start))
    && (forall k :: k in nodes ==> LinkOk(pf, nodes, k))
  }

  /** The path rebuilt from `k` by following parent links back to the root,
      listed from the root: a route from the start to `k` costing exactly
      the cost recorded for `k`. The links end because each parent's cost is
      lower than its child's. */
  function ParentChain(pf: Pathfinder, start: Tile, nodes: Table, k: Tile): (path: seq<Tile>)
    requires ParentLinks(pf, start, nodes) && k in nodes
    ensures IsRoute(pf, path, start, k)
    ensures RouteCost(path) == nodes[k].gCost
    decreases nodes[k].gCost
  {
    match nodes[k].parentNode
    case None => [k]
    case Some(p) =>
      assert LinkOk(pf, nodes, k);
      StepShape(pf, p, k);
      var prefix := ParentChain(pf, start, nodes, p);
      ExtendRoute(pf, prefix, start, p, k);
      prefix + [k]
  }

  /** The open and closed sets partition the node table. */
  ghost predicate Partition(nodes: Table, open: set<Tile>, closed: set<Tile>) {
    open !! closed && nodes.Keys == open + closed
  }

  /** Each record carries its own tile, a tile on the map, and the heuristic
      from that tile to the target. */
  ghost predicate RecordsFit(pf: Pathfinder, target: Tile, nodes: Table) {
    && KeyedByTile(nodes)
    && (forall k :: k in nodes ==> InBounds(pf.tileMapSize, k))
    && (forall k :: k in nodes ==> nodes[k].hValue == Heuristic(pf.distanceType, k, target))
  }

  /** Every parent is closed. */
  ghost predicate ParentsClosed(nodes: Table, closed: set<Tile>) {
    forall k :: k in nodes && nodes[k].parentNode.Some? ==> nodes[k].parentNode.value in closed
  }

  /** The shape of the search state: the open and closed sets partition the
      node table, records fit their tiles, parent links form a tree of
      closed parents, and the target is not closed yet. */
  ghost predicate Shape(pf: Pathfinder, start: Tile, target: Tile, nodes: Table, open: set<Tile>, closed: set<Tile>) {
    && Partition(nodes, open, closed)
    && RecordsFit(pf, target, nodes)
    && ParentLinks(pf, start, nodes)
    && ParentsClosed(nodes, closed)
    && target !in closed
  }

  /** Tile `n`, one step from `c`, has a record, and unless it is closed that
      record costs no more than reaching `n` through `c`. */
  ghost predicate Relaxed(pf: Pathfinder, nodes: Table, closed: set<Tile>, c: Tile, n: Tile) {
    && c in nodes
    && n in nodes
    && (n in closed || nodes[n].gCost <= nodes[c].gCost + StepCost(c, n))
  }

  /** Every neighbour of `c` has been relaxed through `c`. */
  ghost predicate Expanded(pf: Pathfinder, nodes: Table, closed: set<Tile>, c: Tile) {
    forall n :: CanStep(pf, c, n) ==> Relaxed(pf, nodes, closed, c, n)
  }

  /** Every tile of `done` has been expanded. */
  ghost predicate AllExpanded(pf: Pathfinder, nodes: Table, closed: set<Tile>, done: set<Tile>) {
    forall c :: c in done ==> Expanded(pf, nodes, closed, c)
  }

  /** Every closed record costs no more than any route to its tile. */
  ghost predicate ClosedOptimal(pf: Pathfinder, start: Tile, nodes: Table, closed: set<Tile>) {
    forall c, q :: c in closed && c in nodes && IsRoute(pf, q, start, c) ==> nodes[c].gCost <= RouteCost(q)
  }

  /** `a` is at least as good a choice as `b`: lower fValue, ties broken by
      lower hValue (the node nearer the target). */
  predicate NoWorse(a: Node, b: Node) {
    a.fValue() < b.fValue() || (a.fValue() == b.fValue() && a.hValue <= b.hValue)
  }

  /** The open tile whose record has the lowest fValue, ties broken by the
      lowest hValue. */
  method PickBest(nodes: Table, open: set<Tile>) returns (best: Tile)
    requires open != {} && open <= nodes.Keys
    ensures best in open
    ensures forall o :: o in open ==> NoWorse(nodes[best], nodes[o])
  {
    best :| best in open;
    var rest := open - {best};
    while rest != {}
      invariant rest <= open && best in open
      invariant forall o :: o in open && o !in rest ==> NoWorse(nodes[best], nodes[o])
      decreases rest
    {
      var o :| o in rest;
      if !NoWorse(nodes[best], nodes[o]) {
        best := o;
      }
      rest := rest - {o};
    }
  }

  /** The first tile of `q` outside `closed`, when its last tile is outside. */
  lemma FirstOutside(q: seq<Tile>, closed: set<Tile>) returns (i: nat)
    requires |q| >= 1 && q[|q| - 1] !in closed
    ensures i < |q| && q[i] !in closed
    ensures i > 0 ==> q[i - 1] in closed
  {
    i := 0;
    while q[i] in closed
      invariant 0 <= i < |q|
      invariant i > 0 ==> q[i - 1] in closed
      decreases |q| - i
    {
      i := i + 1;
    }
  }

  /** Every route from the start to an open tile passes an open tile whose
      record costs no more than the route up to that tile. */
  lemma FrontierOnRoute(pf: Pathfinder, start: Tile, nodes: Table, open: set<Tile>,
                        closed: set<Tile>, u: Tile, q: seq<Tile>) returns (i: nat)
    requires Partition(nodes, open, closed)
    requires start in nodes && nodes[start].gCost == 0
    requires AllExpanded(pf, nodes, closed, closed) && ClosedOptimal(pf, start, nodes, closed)
    requires u in open && IsRoute(pf, q, start, u)
    ensures i < |q| && q[i] in open
    ensures nodes[q[i]].gCost <= RouteCost(q[..i + 1])
  {
    i := FirstOutside(q, closed);
    if i > 0 {
      StepOutOfClosed(pf, start, nodes, closed, u, q, i);
    }
  }

  /** A route that leaves the closed set at its i-th tile reaches that tile
      no more cheaply than its record. */
  lemma StepOutOfClosed(pf: Pathfinder, start: Tile, nodes: Table, closed: set<Tile>, u: Tile, q: seq<Tile>, i: nat)
    requires AllExpanded(pf, nodes, closed, closed) && ClosedOptimal(pf, start, nodes, closed)
    requires closed <= nodes.Keys
    requires IsRoute(pf, q, start, u) && 0 < i < |q| && q[i - 1] in closed && q[i] !in closed
    ensures q[i] in nodes && nodes[q[i]].gCost <= RouteCost(q[..i + 1])
  {
    var c, n := q[i - 1], q[i];
    assert CanStep(pf, c, n);
    assert Expanded(pf, nodes, closed, c);
    assert Relaxed(pf, nodes, closed, c, n);
    RoutePrefix(pf, q, start, u, i - 1);
    assert nodes[c].gCost <= RouteCost(q[..i]);
    assert q[..i + 1][..i] == q[..i];
    assert RouteCost(q[..i + 1]) == RouteCost(q[..i]) + StepCost(c, n);
  }

  /** When the heuristic is consistent, the open record picked next costs no
      more than any route to its tile: every such route leaves the closed
      set through an open tile whose fValue bounds the route's cost. */
  lemma ClosingIsOptimal(pf: Pathfinder, start: Tile, target: Tile, nodes: Table, open: set<Tile>,
                         closed: set<Tile>, u: Tile, q: seq<Tile>)
    requires Shape(pf, start, target, nodes, open, closed)
    requires AllExpanded(pf, nodes, closed, closed) && ClosedOptimal(pf, start, nodes, closed)
    requires Consistent(pf, target)
    requires u in open && forall o :: o in open ==> NoWorse(nodes[u], nodes[o])
    requires IsRoute(pf, q, start, u)
    ensures nodes[u].gCost <= RouteCost(q)
  {
    var i := FrontierOnRoute(pf, start, nodes, open, closed, u, q);
    var n := q[i];
    RouteCostSplit(q, i);
    RouteSuffix(pf, q, start, u, i);
    HeuristicAlongRoute(pf, target, q[i..], n, u);
    assert NoWorse(nodes[u], nodes[n]);
    assert nodes[n].hValue == Heuristic(pf.distanceType, n, target);
    assert nodes[u].hValue == Heuristic(pf.distanceType, u, target);
  }

  /** Once the open set is empty, no route leaves the closed set: every tile
      a route from a closed tile reaches is closed. */
  lemma RoutesStayClosed(pf: Pathfinder, nodes: Table, closed: set<Tile>, from: Tile)
    requires nodes.Keys == closed && from in closed
    requires AllExpanded(pf, nodes, closed, closed)
    ensures forall q, to :: IsRoute(pf, q, from, to) ==> to in closed
  {
    forall q, to | IsRoute(pf, q, from, to)
      ensures to in closed
    {
      var j := 0;
      while j < |q| - 1
        invariant 0 <= j < |q| && q[j] in closed
      {
        assert CanStep(pf, q[j], q[j + 1]);
        assert Expanded(pf, nodes, closed, q[j]);
        j := j + 1;
      }
    }
  }

  /** Replacing the record of `n` by one that carries `n`, lies on the map
      and has the right heuristic keeps the records fitting. */
  lemma UpdateKeepsRecordsFit(pf: Pathfinder, target: Tile, nodes: Table, n: Tile, r: Node)
    requires RecordsFit(pf, target, nodes)
    requires r.tileLocation == n && InBounds(pf.tileMapSize, n)
    requires r.hValue == Heuristic(pf.distanceType, n, target)
    ensures RecordsFit(pf, target, nodes[n := r])
  {
  }

  /** Giving `n`, not the start, a record whose parent `u` is one admitted
      step before it, with the cost of that step added to `u`'s, keeps the
      parent links sound when no record hangs from `n`'s old one in a way
      that depends on its cost: only closed tiles are parents and `n` is
      not closed. */
  lemma UpdateKeepsParentLinks(pf: Pathfinder, start: Tile, nodes: Table, closed: set<Tile>,
                               u: Tile, n: Tile, r: Node)
    requires ParentLinks(pf, start, nodes) && ParentsClosed(nodes, closed)
    requires u in nodes && u != n && n != start && n !in closed
    requires CanStep(pf, u, n)
    requires r.parentNode == Some(u) && r.gCost == nodes[u].gCost + StepCost(u, n)
    ensures ParentLinks(pf, start, nodes[n := r])
  {
    var nodes' := nodes[n := r];
    forall k | k in nodes'
      ensures LinkOk(pf, nodes', k)
    {
      if k != n {
        assert LinkOk(pf, nodes, k);
      }
    }
  }

  /** Lowering the cost of a tile that is not closed, or giving a record to
      a new tile, keeps every expansion already done. */
  lemma UpdateKeepsExpanded(pf: Pathfinder, nodes: Table, closed: set<Tile>, done: set<Tile>,
                            n: Tile, r: Node)
    requires AllExpanded(pf, nodes, closed, done) && n !in closed
    requires done <= closed
    requires n in nodes ==> r.gCost <= nodes[n].gCost
    ensures AllExpanded(pf, nodes[n := r], closed, done)
  {
    var nodes' := nodes[n := r];
    forall c | c in done
      ensures Expanded(pf, nodes', closed, c)
    {
      forall m | CanStep(pf, c, m)
        ensures Relaxed(pf, nodes', closed, c, m)
      {
        assert Expanded(pf, nodes, closed, c);
        assert Relaxed(pf, nodes, closed, c, m);
      }
    }
  }

  /** Adding a record for a tile first reached through closed `u` keeps the
      search state's shape and the expansions already done. */
  lemma AddKeepsShape(pf: Pathfinder, start: Tile, target: Tile, nodes: Table, open: set<Tile>,
                      closed: set<Tile>, u: Tile, n: Tile, created: Node)
    requires Shape(pf, start, target, nodes, open, closed) && u in closed
    requires AllExpanded(pf, nodes, closed, closed - {u})
    requires CanStep(pf, u, n) && n !in nodes
    requires created == Node(n, nodes[u].gCost + StepCost(u, n), Heuristic(pf.distanceType, n, target), Some(u))
    ensures Shape(pf, start, target, nodes[n := created], open + {n}, closed)
    ensures AllExpanded(pf, nodes[n := created], closed, closed - {u})
  {
    StepShape(pf, u, n);
    UpdateKeepsRecordsFit(pf, target, nodes, n, created);
    UpdateKeepsParentLinks(pf, start, nodes, closed, u, n, created);
    UpdateKeepsExpanded(pf, nodes, closed, closed - {u}, n, created);
  }

  /** Lowering the cost of an open tile's record, with closed `u` as its new
      parent, keeps the search state's shape and the expansions already
      done. */
  lemma LowerKeepsShape(pf: Pathfinder, start: Tile, target: Tile, nodes: Table, open: set<Tile>,
                        closed: set<Tile>, u: Tile, n: Tile, lowered: Node)
    requires Shape(pf, start, target, nodes, open, closed) && u in closed
    requires AllExpanded(pf, nodes, closed, closed - {u})
    requires CanStep(pf, u, n) && n in open
    requires nodes[u].gCost + StepCost(u, n) < nodes[n].gCost
    requires lowered == nodes[n].(gCost := nodes[u].gCost + StepCost(u, n), parentNode := Some(u))
    ensures Shape(pf, start, target, nodes[n := lowered], open, closed)
    ensures AllExpanded(pf, nodes[n := lowered], closed, closed - {u})
  {
    StepShape(pf, u, n);
    UpdateKeepsRecordsFit(pf, target, nodes, n, lowered);
    UpdateKeepsParentLinks(pf, start, nodes, closed, u, n, lowered);
    UpdateKeepsExpanded(pf, nodes, closed, closed - {u}, n, lowered);
  }

  /** The state while closed tile `u` is being expanded: the search state's
      shape holds, every other closed tile stays expanded, and no closed
      record differs from the one in `base`, the table before the expansion. */
  ghost predicate Expanding(pf: Pathfinder, start: Tile, target: Tile, base: Table, nodes: Table,
                            open: set<Tile>, closed: set<Tile>, u: Tile) {
    && Shape(pf, start, target, nodes, open, closed) && u in closed
    && AllExpanded(pf, nodes, closed, closed - {u})
    && (forall c :: c in closed ==> c in nodes && c in base && nodes[c] == base[c])
  }

  /** Relaxes neighbour `n` of the just-closed tile `u`: a tile that is not
      closed gets a record if it has none, or a cheaper cost and `u` as its
      parent if reaching it through `u` is cheaper than its recorded cost.
      Costs only ever fall, and closed records do not change. */
  method Relax(pf: Pathfinder, ghost start: Tile, target: Tile, ghost base: Table, nodes0: Table,
               open0: set<Tile>, closed: set<Tile>, u: Tile, n: Tile) returns (nodes: Table, open: set<Tile>)
    requires Expanding(pf, start, target, base, nodes0, open0, closed, u)
    requires CanStep(pf, u, n)
    ensures Expanding(pf, start, target, base, nodes, open, closed, u)
    ensures Relaxed(pf, nodes, closed, u, n)
    ensures forall m :: Relaxed(pf, nodes0, closed, u, m) ==> Relaxed(pf, nodes, closed, u, m)
  {
    nodes, open := nodes0, open0;
    if n !in closed {
      var g := nodes[u].gCost + StepCost(u, n);
      if n !in nodes {
        var h := Heuristic(pf.distanceType, n, target);
        var created := WithParent(WithHValue(WithGCost(NodeWithLocation(n), g), h), Some(u));
        AddKeepsShape(pf, start, target, nodes, open, closed, u, n, created);
        nodes := nodes[n := created];
        open := open + {n};
      } else if g < nodes[n].gCost {
        var lowered := WithParent(WithGCost(nodes[n], g), Some(u));
        LowerKeepsShape(pf, start, target, nodes, open, closed, u, n, lowered);
        nodes := nodes[n := lowered];
      }
    }
  }

  /** Expands the just-closed tile `u`: relaxes each of its neighbours. */
  method Expand(pf: Pathfinder, ghost start: Tile, target: Tile, nodes0: Table, open0: set<Tile>,
                closed: set<Tile>, u: Tile) returns (nodes: Table, open: set<Tile>)
    requires Shape(pf, start, target, nodes0, open0, closed) && u in closed
    requires AllExpanded(pf, nodes0, closed, closed - {u})
    ensures Shape(pf, start, target, nodes, open, closed)
    ensures AllExpanded(pf, nodes, closed, closed)
    ensures forall c :: c in closed ==> c in nodes && nodes[c] == nodes0[c]
  {
    nodes, open := nodes0, open0;
    var ns := Neighbours(pf, u);
    var i := 0;
    while i < |ns|
      invariant 0 <= i <= |ns|
      invariant Expanding(pf, start, target, nodes0, nodes, open, closed, u)
      invariant forall j :: 0 <= j < i ==> Relaxed(pf, nodes, closed, u, ns[j])
    {
      ghost var before := nodes;
      nodes, open := Relax(pf, start, target, nodes0, nodes, open, closed, u, ns[i]);
      RelaxedPrefixGrows(pf, before, nodes, closed, u, ns, i);
      i := i + 1;
    }
    NeighboursRelaxed(pf, nodes, closed, u, ns);
  }

  /** Relaxing the i-th neighbour, which keeps earlier relaxations, extends
      the relaxed prefix of the neighbour list by one. */
  lemma RelaxedPrefixGrows(pf: Pathfinder, before: Table, nodes: Table, closed: set<Tile>, u: Tile,
                           ns: seq<Tile>, i: nat)
    requires i < |ns|
    requires forall j :: 0 <= j < i ==> Relaxed(pf, before, closed, u, ns[j])
    requires Relaxed(pf, nodes, closed, u, ns[i])
    requires forall m :: Relaxed(pf, before, closed, u, m) ==> Relaxed(pf, nodes, closed, u, m)
    ensures forall j :: 0 <= j < i + 1 ==> Relaxed(pf, nodes, closed, u, ns[j])
  {
    forall j | 0 <= j < i + 1
      ensures Relaxed(pf, nodes, closed, u, ns[j])
    {
      if j < i {
        assert Relaxed(pf, before, closed, u, ns[j]);
      }
    }
  }

  /** Once every neighbour of `u` is relaxed, `u` joins the expanded tiles. */
  lemma NeighboursRelaxed(pf: Pathfinder, nodes: Table, closed: set<Tile>, u: Tile, ns: seq<Tile>)
    requires AllExpanded(pf, nodes, closed, closed - {u})
    requires ns == Neighbours(pf, u)
    requires forall j :: 0 <= j < |ns| ==> Relaxed(pf, nodes, closed, u, ns[j])
    ensures AllExpanded(pf, nodes, closed, closed)
  {
    forall n | CanStep(pf, u, n)
      ensures Relaxed(pf, nodes, closed, u, n)
    {
      assert n in ns;
    }
    assert Expanded(pf, nodes, closed, u);
  }

  /** The loop invariant of the search: the state has its shape, every
      closed tile is expanded, and, when the heuristic is consistent, every
      closed record is a cheapest way to its tile. */
  ghost predicate Searching(pf: Pathfinder, start: Tile, target: Tile, nodes: Table, open: set<Tile>, closed: set<Tile>) {
    && Shape(pf, start, target, nodes, open, closed)
    && AllExpanded(pf, nodes, closed, closed)
    && (Consistent(pf, target) ==> ClosedOptimal(pf, start, nodes, closed))
  }

  /** The search starts with only the start record, open. */
  lemma StartSearching(pf: Pathfinder, start: Tile, target: Tile, startNode: Node)
    requires start != target && InBounds(pf.tileMapSize, start)
    requires startNode == Node(start, 0, Heuristic(pf.distanceType, start, target), None)
    ensures Searching(pf, start, target, map[start := startNode], {start}, {})
  {
    var nodes := map[start := startNode];
    assert LinkOk(pf, nodes, start);
  }

  /** Moving the best open tile `u`, not the target, to the closed set
      prepares the state for expanding `u`. */
  lemma CloseBest(pf: Pathfinder, start: Tile, target: Tile, nodes: Table, open: set<Tile>, closed: set<Tile>, u: Tile)
    requires Searching(pf, start, target, nodes, open, closed)
    requires u in open && u != target && forall o :: o in open ==> NoWorse(nodes[u], nodes[o])
    ensures Shape(pf, start, target, nodes, open - {u}, closed + {u})
    ensures AllExpanded(pf, nodes, closed + {u}, (closed + {u}) - {u})
    ensures Consistent(pf, target) ==> ClosedOptimal(pf, start, nodes, closed + {u})
    ensures u in AllTiles(pf.tileMapSize) - closed
  {
    assert (closed + {u}) - {u} == closed;
    ShapeAfterClosing(pf, start, target, nodes, open, closed, u);
    ExpandedAsClosedGrows(pf, nodes, closed, u);
    if Consistent(pf, target) {
      ClosedOptimalGrows(pf, start, target, nodes, open, closed, u);
    }
  }

  /** With a consistent heuristic, the best open record joins the cheapest
      closed ones. */
  lemma ClosedOptimalGrows(pf: Pathfinder, start: Tile, target: Tile, nodes: Table, open: set<Tile>, closed: set<Tile>, u: Tile)
    requires Searching(pf, start, target, nodes, open, closed) && Consistent(pf, target)
    requires u in open && forall o :: o in open ==> NoWorse(nodes[u], nodes[o])
    ensures ClosedOptimal(pf, start, nodes, closed + {u})
  {
    forall c, q | c in closed + {u} && c in nodes && IsRoute(pf, q, start, c)
      ensures nodes[c].gCost <= RouteCost(q)
    {
      if c == u {
        ClosingIsOptimal(pf, start, target, nodes, open, closed, u, q);
      }
    }
  }

  /** Moving an open tile other than the target to the closed set keeps the
      state's shape. */
  lemma ShapeAfterClosing(pf: Pathfinder, start: Tile, target: Tile, nodes: Table, open: set<Tile>, closed: set<Tile>, u: Tile)
    requires Shape(pf, start, target, nodes, open, closed)
    requires u in open && u != target
    ensures Shape(pf, start, target, nodes, open - {u}, closed + {u})
    ensures u in AllTiles(pf.tileMapSize) - closed
  {
    PartitionAfterClosing(nodes, open, closed, u);
    OpenTileOnMap(pf, target, nodes, open, closed, u);
  }

  lemma PartitionAfterClosing(nodes: Table, open: set<Tile>, closed: set<Tile>, u: Tile)
    requires Partition(nodes, open, closed) && ParentsClosed(nodes, closed) && u in open
    ensures Partition(nodes, open - {u}, closed + {u}) && ParentsClosed(nodes, closed + {u})
  {
  }

  lemma OpenTileOnMap(pf: Pathfinder, target: Tile, nodes: Table, open: set<Tile>, closed: set<Tile>, u: Tile)
    requires Partition(nodes, open, closed) && RecordsFit(pf, target, nodes) && u in open
    ensures u in AllTiles(pf.tileMapSize) - closed
  {
  }

  /** Closing one more tile keeps every expansion done. */
  lemma ExpandedAsClosedGrows(pf: Pathfinder, nodes: Table, closed: set<Tile>, u: Tile)
    requires AllExpanded(pf, nodes, closed, closed)
    ensures AllExpanded(pf, nodes, closed + {u}, closed)
  {
    forall c | c in closed
      ensures Expanded(pf, nodes, closed + {u}, c)
    {
      forall n | CanStep(pf, c, n)
        ensures Relaxed(pf, nodes, closed + {u}, c, n)
      {
        assert Expanded(pf, nodes, closed, c);
        assert Relaxed(pf, nodes, closed, c, n);
      }
    }
  }

  /** When the target is the best open tile and the heuristic is
      consistent, its record costs no more than any route to it. */
  lemma TargetReached(pf: Pathfinder, start: Tile, target: Tile, nodes: Table, open: set<Tile>, closed: set<Tile>)
    requires Searching(pf, start, target, nodes, open, closed) && Consistent(pf, target)
    requires target in open && forall o :: o in open ==> NoWorse(nodes[target], nodes[o])
    ensures forall q :: IsRoute(pf, q, start, target) ==> nodes[target].gCost <= RouteCost(q)
  {
    forall q | IsRoute(pf, q, start, target)
      ensures nodes[target].gCost <= RouteCost(q)
    {
      ClosingIsOptimal(pf, start, target, nodes, open, closed, target, q);
    }
  }

  /** Closed records that do not change stay cheapest. */
  lemma ClosedOptimalKept(pf: Pathfinder, start: Tile, before: Table, nodes: Table, closed: set<Tile>)
    requires ClosedOptimal(pf, start, before, closed)
    requires forall c :: c in closed ==> c in before && c in nodes && nodes[c] == before[c]
    ensures ClosedOptimal(pf, start, nodes, closed)
  {
  }

  /** A* from `start` to `target`: no path when the two are the same tile,
      the target is not walkable or the start is off the map; otherwise a
      route from start to target when one exists, and no path exactly when
      none does. With a consistent heuristic the route is a cheapest one. */
  method SearchTiles(pf: Pathfinder, start: Tile, target: Tile) returns (path: Option<seq<Tile>>)
    ensures path.None? <==> start == target || !InBounds(pf.tileMapSize, start) || !Reachable(pf, start, target)
    ensures !CanWalk(pf, target) ==> path.None?
    ensures path.Some? ==> IsRoute(pf, path.value, start, target)
    ensures path.Some? ==> forall i :: 1 <= i < |path.value| ==> CanWalk(pf, path.value[i])
    ensures path.Some? && Consistent(pf, target) ==>
      forall q :: IsRoute(pf, q, start, target) ==> RouteCost(path.value) <= RouteCost(q)
  {
    if start == target || !CanWalk(pf, target) || !InBounds(pf.tileMapSize, start) {
      if start != target && !CanWalk(pf, target) {
        UnwalkableUnreachable(pf, start, target);
      }
      return None;
    }
    var startNode := WithHValue(NodeWithLocation(start), Heuristic(pf.distanceType, start, target));
    StartSearching(pf, start, target, startNode);
    var nodes := map[start := startNode];
    var open := {start};
    var closed: set<Tile> := {};
    while open != {}
      invariant Searching(pf, start, target, nodes, open, closed)
      decreases AllTiles(pf.tileMapSize) - closed
    {
      var u := PickBest(nodes, open);
      if u == target {
        if Consistent(pf, target) {
          TargetReached(pf, start, target, nodes, open, closed);
        }
        var route := ParentChain(pf, start, nodes, u);
        RouteTilesWalkable(pf, route, start, target);
        return Some(route);
      }
      CloseBest(pf, start, target, nodes, open, closed, u);
      open := open - {u};
      closed := closed + {u};
      ghost var before := nodes;
      nodes, open := Expand(pf, start, target, nodes, open, closed, u);
      if Consistent(pf, target) {
        ClosedOptimalKept(pf, start, before, nodes, closed);
      }
    }
    RoutesStayClosed(pf, nodes, closed, start);
    return None;
  }
}

=== FILE: walls.dfy ===
/** A search on a map with an obstacle: a wall along row 2 with a single gap
    at column 2, so that every path from below the wall to above it must
    pass through the gap. */
module Walls {
  import opened Wrappers
  import opened Grid
  import opened Distance
  import opened Engine
  import opened Movement
  import opened Routes
  import opened Positions
  import opened Pathfinding

  /** The delegate of the walled map: every tile of row 2 is blocked except
      the gap at column 2. */
  function Wall(t: Tile): bool {
    t.row != 2 || t.col == 2
  }

  /** With any movement, every route from below row 2 to above it passes
      through the gap (2,2): no step changes the row by more than one. */
  lemma RoutesPassTheGap(pf: Pathfinder, path: seq<Tile>, from: Tile, to: Tile)
    requires pf.delegate == Some(Wall)
    requires IsRoute(pf, path, from, to) && from.row < 2 && to.row > 2
    ensures Tile(2, 2) in path
  {
    var i := 0;
    while path[i].row < 2
      invariant 0 <= i < |path|
      invariant i > 0 ==> path[i - 1].row < 2
      decreases |path| - i
    {
      i := i + 1;
    }
    assert i > 0;
    StepShape(pf, path[i - 1], path[i]);
    assert path[i].row == 2;
    assert path[i] == Tile(2, 2);
  }

  /** A route of nine tiles from (0,0) to (4,4) on the walled 5 x 5 map:
      east along row 0, north through the gap, east along row 4. */
  method GapRoute(pf: Pathfinder) returns (path: seq<Tile>)
    requires pf.delegate == Some(Wall) && pf.tileMapSize == Size(5, 5)
    ensures IsRoute(pf, path, Tile(0, 0), Tile(4, 4)) && |path| == 9
  {
    path := [Tile(0, 0)];
    path := Step(pf, path, Tile(0, 0), Tile(1, 0));
    path := Step(pf, path, Tile(1, 0), Tile(2, 0));
    path := Step(pf, path, Tile(2, 0), Tile(2, 1));
    path := Step(pf, path, Tile(2, 1), Tile(2, 2));
    path := Step(pf, path, Tile(2, 2), Tile(2, 3));
    path := Step(pf, path, Tile(2, 3), Tile(2, 4));
    path := Step(pf, path, Tile(2, 4), Tile(3, 4));
    path := Step(pf, path, Tile(3, 4), Tile(4, 4));
  }

  /** A route from (0,0) on the walled map, extended by one step east or
      north onto a tile of the map that the wall leaves open. */
  method Step(pf: Pathfinder, path: seq<Tile>, mid: Tile, to: Tile) returns (longer: seq<Tile>)
    requires pf.delegate == Some(Wall) && InBounds(pf.tileMapSize, to) && Wall(to)
    requires to == Tile(mid.col + 1, mid.row) || to == Tile(mid.col, mid.row + 1)
    requires IsRoute(pf, path, Tile(0, 0), mid)
    ensures IsRoute(pf, longer, Tile(0, 0), to) && |longer| == |path| + 1
  {
    ExtendRoute(pf, path, Tile(0, 0), mid, to);
    longer := path + [to];
  }

  /** On the walled 5 x 5 map with Manhattan distance and four-way movement,
      the search from the centre of tile (0,0) to the centre of tile (4,4)
      finds a path, it passes through the centre of the gap (2,2), and it
      costs 80: eight straight steps, the Manhattan distance, as the gap
      lies on a shortest staircase. */
  method WalledGridScenario(pf: Pathfinder) returns (path: Option<seq<Point>>)
    requires pf.delegate == Some(Wall) && pf.tileMapSize == Size(5, 5) && ValidTileSize(pf.tileSize)
    requires pf.distanceType == Manhattan && !pf.pathDiagonally
    ensures path.Some?
    ensures path.Some? ==> |path.value| == 9
    ensures path.Some? ==> path.value[0] == PositionForTileLocation(pf.tileSize, Tile(0, 0))
    ensures path.Some? ==> path.value[8] == PositionForTileLocation(pf.tileSize, Tile(4, 4))
    ensures path.Some? ==> PositionForTileLocation(pf.tileSize, Tile(2, 2)) in path.value
    ensures path.Some? ==> RouteCost(TilesOf(pf, path.value)) == 80
  {
    var start := PositionForTileLocation(pf.tileSize, Tile(0, 0));
    var target := PositionForTileLocation(pf.tileSize, Tile(4, 4));
    TileRoundTrip(pf.tileSize, Tile(0, 0));
    TileRoundTrip(pf.tileSize, Tile(4, 4));
    var route := GapRoute(pf);
    StraightRouteCost(pf, route, Tile(0, 0), Tile(4, 4));
    assert Reachable(pf, Tile(0, 0), Tile(4, 4));
    path := FindPath(pf, start, target);
    var tiles := TilesOf(pf, path.value);
    RoutesPassTheGap(pf, tiles, Tile(0, 0), Tile(4, 4));
    var k :| 0 <= k < |tiles| && tiles[k] == Tile(2, 2);
    assert path.value[k] == PositionForTileLocation(pf.tileSize, Tile(2, 2));
    assert RouteCost(tiles) <= 80;
    AdmissibleSettingIsConsistent(pf, Tile(4, 4));
    ConsistentIsAdmissible(pf, Tile(4, 4), tiles, Tile(0, 0));
    StraightRouteCost(pf, tiles, Tile(0, 0), Tile(4, 4));
  }
}

=== FILE: wrappers.dfy ===
/** Optional values: the model's stand-in for a nil object reference. */
module Wrappers {

  datatype Option<+T> = None | Some(value: T)
}
